=== FILE: README.md ===
# FM receiver front panel, modelled in Dafny

This project models the control logic of an Arduino FM receiver front panel (`FmReceiver.cpp`). The
receiver is tuned by a potentiometer and drives an Si5351 synthesizer as its local oscillator. A
GU144X16D vacuum-fluorescent display (VFD) shows:

- an "FM" label;
- a four-character signal-strength meter;
- the channel frequency;
- a scrolling graticule;
- a scrolling spectrum, which remembers how strong each channel was when it was last tuned.

The model covers six parts:

- **Frequency conversions** (`Frequency`). The tuning reading maps to an RF frequency in 10 kHz units.
  The RF frequency maps to a channel centre on the 200 kHz raster and to a channel index with a
  sentinel of 255. The channel maps to the local-oscillator frequency, with the 10.7 MHz IF split at
  98.0 MHz and a sentinel of 0.
- **The display protocol** (`Protocol`). There is one `Command` datatype for everything `VFD` writes.
  Its byte encoder is paired with an independent decoder, and round-trip lemmas connect the two.
- **`VFD::Field` dirty tracking** (`DisplayField`). The setters raise the stale flag only on a real
  change. `update` re-sends magnification, font width, cursor and text only for an enabled, stale
  field. The `Current` invariant ("stale, or the device shows the field as it is") is preserved by
  every setter and by `update`.
- **The 8-slot field registry** (`Registry`). It covers `create_text_field`, `update_fields`,
  `enstale_fields`, `clear` and `begin`, over an immutable record whose device output is an
  append-only byte sequence.
- **The panel** (`Screen`, `Readout`, `Spectrum`). These model:
  - the six fields the firmware registers at start-up;
  - the strength meter and the graticule text;
  - the spectrum window read (`strncpy` of 16 cells, spaces at both ends, read up to the first NUL);
  - the guarded pair write into the 255-cell spectrum history;
  - the `"%3d.%1d"` readout;
  - the centre-marker overlay;
  - the display half of one `loop()` iteration.
- **The loop** (`Receiver`). It covers `setup()` as far as the panel goes, then one `loop()`
  iteration as a step between states:
  - the tuning filter `(3*tuning + reading)/4`;
  - the retune decision;
  - the bar count;
  - the redraw;
  - the spectrum write.

  A run over a sequence of readings keeps the loop's invariant.

## Machine details made explicit

- The model assumes the program is built for a classic 8-bit AVR Arduino core, as its
  `#include <SoftwareSerial.h>` (FmReceiver.cpp:2) suggests. The file itself names no board. On that
  core `int` is 16 bits, so `3*tuning_value` and `1*rf - 8776` are 16-bit unsigned arithmetic.
  Every store into a narrower object is written as an explicit narrowing (`ToByte`, `ToU16`,
  `ToU32`), and `(int16_t)` is `ToInt16`.
- The `Field` constructor leaves position, width and magnification uninitialised. The fields live
  inside the global `vfd` object, so static zero-initialisation makes them 0, and the model uses 0
  (`DisplayField.Unconfigured`). The same holds for the uninitialised static `lo_freq_10khz`.
- Positions of `-1` are narrowed to 255 (`Screen.Layout`).
- `set_custom_char_download_enabled` ignores its argument.
- On the classic AVR core, `constrain` is the macro `((amt)<(low)?(low):((amt)>(high)?(high):(amt)))`,
  and the model assumes that definition. Arduino.h is not part of this model. The argument
  `analogRead(lock_detect_pin)` is expanded three times, so one `constrain` samples the lock-detect pin up to three times: the first sample is compared with 400, the
  second with 660, and the third is returned. The model takes the three samples as a parameter
  (`Receiver.Samples`). A steady signal gives three equal samples.
- `lock_detect_min` and `lock_detect_max` are `uint16_t`. With a 16-bit `int`, a `uint16_t` is not
  promoted to a wider signed type, so `strength_value - 400` and `5 * (...)` are 16-bit unsigned
  operations that wrap, and the quotient is stored into a `uint8_t`
  (`Receiver.BarCount`).

## Behaviour of the code worth knowing

The model reproduces all of the following; none is corrected.

- The bar count depends on how the samples compare with the bounds:
  - For a steady signal, `num_bars` is `(v - 400) / 52` with `v` clamped to 400..660, so it is 0..5.
    It reaches 5 at 660 (`Receiver.BarThresholds`).
  - When the first sample is at least 400 and the second at most 660, the third is stored as it is,
    whatever its value (`Receiver.ConstrainSampled`). A first sample below 400 stores 400, and
    otherwise a second sample above 660 stores 660. A third sample below 400 that is stored as it is
    wraps the subtraction and gives 244..252 bars. For example, samples (500, 500, 399) give 252 bars, and the
    spectrum pair then gets 0xF3 and 0xF7. A third sample above 660, after a second one of at most
    660, gives up to 11 bars (`Receiver.ResampledStrength`).
  - The meter shows `bars[constrain(num_bars, 0, 4)]`, so it never shows more than four bars. The
    spectrum write uses `num_bars` itself.
- The left glyph `0xF8 + num_bars - 1` and the right glyph `0xFC + num_bars - 1` are stored into a
  `char`. The right glyph is NUL at 5 bars and the left one at 9 bars (`Spectrum.GlyphsNonNul`).
  - A NUL stored in a cell ends the next window read at that offset, so every cell to its right drops
    out of view (`Spectrum.FullStrengthCutsWindow`).
  - The window's first cell, at the offset itself, is never shown, because line 457 overwrites it
    with a space. A NUL there still cuts the `strncpy` at line 456, so the whole window is sent as a
    single space (`Spectrum.HiddenNulBlanks`). This happens, for example, when a later frequency's
    offset lands on the odd cell that a five-bar write set to NUL.
  - While the returned sample stays below 660, no NUL is ever written (`Receiver.WeakSignalBars`,
    `Receiver.Run`).
- The tuning filter rounds down. It always follows a lower reading, but a reading less than 4 above
  the current value leaves it unchanged (`Receiver.SmoothMoves`).
- `setup()` disables the graticule field, so the graticule is maintained but never shown.
- The spectrum shown in an iteration is the spectrum from before that iteration's write.

Consequences of the arithmetic as written:

- Reading 1023 tunes to 10822, because the span 2048 is divided by 1024. The upper bound 10824
  (`// 9800 + 1024`, FmReceiver.cpp:299) is never reached.
- The channel index is `(f - 8776) / 10`: 0..204 inside the band and 255 outside it.
- For channels outside 88.0–108.0 MHz, the oscillator frequency 0 is sent to the synthesizer. No guard
  stops the call (`Receiver.ZeroOscillatorAtBandEdges`).
- The window read has no bounds check. The model proves that for converter readings it stays inside
  the 255 cells (`Receiver.PairInsideWindow`).
- `1 * rf - min` is `rf - min`, so the spectrum offset is the channel index (`Spectrum.CharOffset`).

## Model

| member | source | states |
|---|---|---|
| Native.CString | FmReceiver.cpp:150-154 | the string a `char *` write sends: a prefix of the buffer, free of NUL, ending just before the first NUL |
| Protocol.ModeOf | FmReceiver.cpp:104-106 | exactly the codes 0..3 name a write mode, and each mode's code maps back to it |
| Protocol.Encode | FmReceiver.cpp:168-219 | every control command starts with one of the lead bytes 0x0C, 0x1B, 0x1F; raw text is sent unchanged |
| Protocol.Parse | FmReceiver.cpp:168-219 | whatever the decoder recognises is a well-formed control command whose encoding is exactly the bytes it consumed |
| Protocol.ParseEncode | FmReceiver.cpp:168-219 | every encoded control command decodes back to itself whatever follows it, so no encoding is a prefix of another |
| Protocol.ParseStream | FmReceiver.cpp:168-219 | a decoded byte stream re-encodes to exactly the same bytes |
| Protocol.ParseStreamEncodeAll | FmReceiver.cpp:168-219 | any sequence of control commands sent back to back decodes to the same sequence |
| DisplayField.SetEnabled | FmReceiver.cpp:39-43 | sets the flag and always marks the field stale; the appearance is unchanged |
| DisplayField.SetValue | FmReceiver.cpp:45-49 | replaces the text; the field becomes stale if and only if it was stale or the text changed |
| DisplayField.SetPosition | FmReceiver.cpp:51-56 | moves the field; it becomes stale if and only if it was stale or x or y changed |
| DisplayField.SetFontWidth | FmReceiver.cpp:58-62 | sets the width; it becomes stale if and only if it was stale or the width changed |
| DisplayField.SetFontMagnification | FmReceiver.cpp:64-69 | sets both magnifications; it becomes stale if and only if it was stale or either changed |
| DisplayField.Enstale | FmReceiver.cpp:71-74 | marks the field stale and changes nothing else |
| DisplayField.Update | FmReceiver.cpp:76-85 | sends output if and only if the field is enabled and stale, and then exactly the rendering of its appearance; afterwards the field is never enabled-and-stale, and a silent update changes nothing |
| DisplayField.SetValueAndUpdate | FmReceiver.cpp:87-91 | only the text changes, to the new one, and the field ends settled; output is sent if and only if the field is enabled and was stale or the text differs, and it is then the rendering with the new text |
| DisplayField.Render | FmReceiver.cpp:79-82 | a re-send is a 17-byte header (magnification, font width, cursor) followed by the text up to its first NUL |
| DisplayField.RenderSequence | FmReceiver.cpp:79-82 | a re-send is magnification, then font width, then cursor, then the text up to its first NUL, each decoding back to its command |
| DisplayField.UpdateTwice | FmReceiver.cpp:76-85 | a second `update` with no change in between sends nothing and changes nothing |
| DisplayField.EditKeepsCurrent | FmReceiver.cpp:39-74 | no setter breaks the invariant "stale, or shown as it is", and no setter clears the stale flag |
| DisplayField.EditsKeepCurrent | FmReceiver.cpp:39-74 | any sequence of setter calls keeps the invariant and never clears the stale flag |
| DisplayField.UpdateKeepsCurrent | FmReceiver.cpp:76-85 | after `update`, what the device shows is the field as it is; an enabled field that `update` leaves silent was already shown as it is |
| DisplayField.UnchangedFieldStaysQuiet | FmReceiver.cpp:45-85 | setting a settled field to the values it already has leaves it untouched, and the next update sends nothing |
| Registry.Make | FmReceiver.cpp:108-111 | a new display has no fields and has written nothing |
| Registry.Send | FmReceiver.cpp:150-160 | a device write appends exactly the command's bytes and touches no field |
| Registry.Draw | FmReceiver.cpp:197-205 | `draw` appends the 13-byte bit-image header, then the data bytes |
| Registry.SetCustomCharDownloadEnabled | FmReceiver.cpp:207-210 | appends 1B 25 01 whatever the argument, and that decodes as the download-enable command |
| Registry.CreateTextField | FmReceiver.cpp:124-134 | on a full arena, NULL and nothing changes; otherwise the next slot, count up by one, the slot holding the given geometry, and no other slot touched |
| Registry.SetValueAndUpdate | FmReceiver.cpp:87-91 | `set_value_and_update` on a registered field appends that field's output and leaves the other slots alone |
| Registry.QuietFieldsSendNothing | FmReceiver.cpp:136-141 | a bulk update over fields that are all disabled or current sends nothing |
| Registry.UpdateFields | FmReceiver.cpp:136-141 | the output is each registered field's `update` output in creation order, every registered field is updated, and none is left enabled-and-stale |
| Registry.EnstaleFields | FmReceiver.cpp:143-148 | every registered field is marked stale, and nothing is written |
| Registry.Clear | FmReceiver.cpp:162-166 | appends 0x0C and leaves every registered field stale, with appearance and enabled flag unchanged |
| Registry.Begin | FmReceiver.cpp:113-122 | appends reset, download-enable, normal mode, width 1, magnification 1x1, clear and cursor home, in that order, and leaves every field stale |
| Frequency.LoFreq | FmReceiver.cpp:307-318 | nonzero exactly on 8800..10800; then 1070 from the RF frequency, below it under 9800 and above it from 9800 |
| Frequency.LoFreqInjective | FmReceiver.cpp:307-318 | a nonzero oscillator frequency determines the RF frequency it was computed for |
| Frequency.TuningToFreq | FmReceiver.cpp:321-324 | `8776 + 2 * reading` up to 28379, and within 8776..10822 for every 10-bit reading |
| Frequency.TuningMonotone | FmReceiver.cpp:321-324 | non-decreasing until the 16-bit sum wraps |
| Frequency.TuningEndpoints | FmReceiver.cpp:321-324 | reading 0 gives 8776, 512 gives 9800, and 1023 gives 10822 |
| Frequency.TuningWraps | FmReceiver.cpp:321-324 | the 16-bit result wraps to 0 just after reading 28379 |
| Frequency.ChannelIndex | FmReceiver.cpp:327-335 | 255 exactly outside [8776, 10824); inside, the number of whole 100 kHz steps above 8776, at most 204 |
| Frequency.ChannelFreq | FmReceiver.cpp:338-340 | the result is a raster centre (`% 20 == 10`) within 9 below and 10 above the input |
| Frequency.ChannelFreqUnique | FmReceiver.cpp:338-340 | the centre chosen is the only raster centre whose cell holds the input |
| Frequency.ChannelFreqIdempotent | FmReceiver.cpp:338-340 | applying the conversion twice gives the same centre as once |
| Frequency.ChannelFreqMonotone | FmReceiver.cpp:338-340 | the channel centre never decreases as the RF frequency increases |
| Spectrum.Blank | FmReceiver.cpp:394-395 | after `setup` all 255 cells hold '_' |
| Spectrum.CharOffset | FmReceiver.cpp:454 | `(rf - 8776) / 10` inside the band, equal to the channel index there |
| Spectrum.PixelOffset | FmReceiver.cpp:453 | the sub-cell scroll is 0..5 pixels, and 0 on a 100 kHz boundary |
| Spectrum.PairIndex | FmReceiver.cpp:478-479 | the pair written starts at an even cell 7 or 8 after the offset |
| Spectrum.Locked | FmReceiver.cpp:477 | the write guard `abs((int16_t)rf - (int16_t)ch) < 5`; for frequencies below 0x8000 it holds exactly when they are fewer than five 10 kHz steps apart |
| Spectrum.LeftGlyph | FmReceiver.cpp:478 | '_' for no bars, else 0xF8 + bars - 1 wrapped to a byte: 0xF8..0xFC for 1..5 bars, and below 0xF8 for the wrapped counts |
| Spectrum.RightGlyph | FmReceiver.cpp:479 | '_' for no bars, else 0xFC + bars - 1 wrapped to a byte: 0xFC..0xFF for 1..4 bars and NUL for 5 |
| Spectrum.GlyphsNonNul | FmReceiver.cpp:478-479 | the left glyph is NUL exactly at 9 bars, and the right one exactly at 5 bars |
| Spectrum.Record | FmReceiver.cpp:477-480 | when locked, the pair receives the glyphs; no other cell ever changes, and nothing changes when not locked |
| Spectrum.Strncpy | FmReceiver.cpp:456 | `strncpy` returns exactly `n` characters, each the source character at that position or NUL |
| Spectrum.StrncpyStopsAtNul | FmReceiver.cpp:456 | `strncpy` copies up to the first NUL and fills the rest with NULs |
| Spectrum.StrncpyKeepsPrefix | FmReceiver.cpp:456 | a source prefix without NUL is copied verbatim |
| Spectrum.Subspectrum | FmReceiver.cpp:455-459 | the 17-byte buffer: a space, then each of the next 14 bytes is the cell at that position or NUL, then a space and the terminating NUL |
| Spectrum.SubspectrumShape | FmReceiver.cpp:455-459 | the window string is 1 to 16 characters and starts with a space |
| Spectrum.SubspectrumOfNulFree | FmReceiver.cpp:455-459 | without NULs in cells o..o+14 (cell o is never shown but still cuts the copy) the window is a space, cells o+1..o+14, and a space |
| Spectrum.HiddenNulBlanks | FmReceiver.cpp:455-459 | a NUL in the hidden cell o makes `strncpy` copy nothing, so the window is a single space whatever the shown cells hold |
| Spectrum.Window | FmReceiver.cpp:453-461 | the string sent is 1..16 characters, starts with a space and holds no NUL; without NULs in cells o..o+14 (cell o is never shown but still cuts the copy) it is exactly the 14 shown cells between two spaces; with a NUL in cell o it is a single space |
| Spectrum.WindowFrame | FmReceiver.cpp:455-456 | the window read depends only on the 16 cells from the offset |
| Spectrum.RecordedPairIsShown | FmReceiver.cpp:456-480 | on a NUL-free spectrum, a locked write of any bar count other than 5 and 9 appears in the next window read at the same offset, at the pair's positions |
| Spectrum.WindowStopsAtNul | FmReceiver.cpp:455-461 | with no NUL in cells o..o+m-1 (cell o is never shown but still cuts the copy), a NUL in the displayed cell o+m ends the window string just before it |
| Spectrum.FullStrengthCutsWindow | FmReceiver.cpp:477-480 | a five-bar write stores 0xFC and NUL, and the window read then ends right after the left half of the pair |
| Readout.Tenths | FmReceiver.cpp:465 | the tenths digit is 0..9 |
| Readout.Whole | FmReceiver.cpp:464 | for a channel below 25600 (so that the quotient fits a `uint8_t`), the whole part is the number of whole MHz: 100w <= ch < 100(w + 1) |
| Readout.WholeAndTenthsExact | FmReceiver.cpp:464-465 | for a frequency on a 100 kHz step the whole and tenths parts lose nothing |
| Readout.Decimal | FmReceiver.cpp:467 | `%d` prints at least one digit, only digits, and they read back as the value |
| Readout.DecimalLength | FmReceiver.cpp:467 | `%d` of a value below 1000 takes one, two or three characters as the value requires |
| Readout.PadLeft | FmReceiver.cpp:467 | a `%3d` field right-aligns the digits after spaces |
| Readout.SkipPadding | FmReceiver.cpp:467 | dropping the leading spaces of a padded field gives back the digits |
| Readout.FreqText | FmReceiver.cpp:467 | the `%3d.%1d` text is exactly the whole part's digits padded to three characters, the point at index 3, and the tenths digits; one tenths digit makes it five characters |
| Readout.FreqTextReadsBack | FmReceiver.cpp:466-467 | for every byte whole part and a one-digit tenths part, the `%3d.%1d` text is five characters with the point at index 3, and its two numbers read back |
| Readout.FreqTextShowsChannel | FmReceiver.cpp:464-468 | the readout of any raster channel below 25600, whole part of one, two or three digits, reads back as the channel frequency exactly |
| Screen.CreateAll | FmReceiver.cpp:124-134 | successive `create_text_field` calls take consecutive slots and hand out their indices until the arena is full, then NULL; each new field has its geometry and is stale exactly when that differs from the zero default |
| Screen.PanelFields | FmReceiver.cpp:245-252 | the six panel fields take slots 0..5 in order with their geometry, all stale and enabled; the graticule's x and the spectrum's y are 255, the narrowed -1 |
| Screen.BarText | FmReceiver.cpp:256-262 | the meter shows glyphs F0.. for the first `min(bars, 4)` positions and spaces after, four characters in all |
| Screen.GraticulePattern | FmReceiver.cpp:254 | the graticule is 59 characters: the 10-character division (dots and ticks, then a bar) repeated, starting one character into it |
| Screen.GraticulePixelOffset | FmReceiver.cpp:446 | the graticule's pixel offset is 5..11 |
| Screen.GraticuleCharOffset | FmReceiver.cpp:447 | the graticule's character offset is the spectrum offset modulo 10 |
| Screen.GraticuleText | FmReceiver.cpp:449 | the graticule text is 15 characters between two spaces |
| Screen.GraticuleScrolls | FmReceiver.cpp:445-449 | each visible graticule character is the division character at the channel's position, so the graticule scrolls in step with the spectrum |
| Screen.GraticuleX | FmReceiver.cpp:448 | the graticule is placed at x = 29..35 |
| Screen.SpectrumX | FmReceiver.cpp:460 | the spectrum is placed at x = 35..40 |
| Screen.ChannelText | FmReceiver.cpp:464-467 | the readout text for a channel is five characters with the point at index 3 |
| Screen.Refresh | FmReceiver.cpp:87-91 | the field shows the new text and is settled; it is re-sent only if enabled and stale or changed; a settled field given its own text is left as it was |
| Screen.Place | FmReceiver.cpp:448-449 | `set_position` then `set_value_and_update`: moved and re-texted, settled, re-sent only if something changed |
| Screen.Overlay | FmReceiver.cpp:471-474 | the centre marker appends its bytes and touches no field |
| Screen.OverlayDecodes | FmReceiver.cpp:471-474 | the marker is 24 bytes: mode OR, the bit-image header at (83, 9) of 5x7, the five reticle columns, and mode NORMAL |
| Screen.ShowLabels | FmReceiver.cpp:438-442 | exactly the FM label's re-send and then the meter's re-send are appended, each only if needed; the two fields show "FM" and the bars and are settled; nothing else changes; already showing them, nothing is sent |
| Screen.ShowScales | FmReceiver.cpp:445-461 | exactly the graticule's re-send and then the spectrum's re-send are appended, each at its new position and only if needed; both are settled; nothing else changes; already showing them, nothing is sent |
| Screen.ShowReadout | FmReceiver.cpp:464-474 | exactly the readout's re-send, if needed, and then the 24 marker bytes are appended; the readout shows the channel text; a readout already showing it sends only the marker |
| Screen.Show | FmReceiver.cpp:438-474 | the line grows by exactly the label, meter, graticule, spectrum and readout re-sends, in that order and each only if needed, and then the marker; the five fields show what the iteration computed and are settled; the tuning field and unused slots are untouched; an already-drawn screen sends only the marker |
| Screen.DrawnSettles | FmReceiver.cpp:438-474 | a drawn screen is already current for the same inputs, so a second redraw sends only the marker |
| Receiver.Constrain | FmReceiver.cpp:440 | `constrain` on one steady value stays within the bounds and leaves values inside them alone |
| Receiver.ConstrainSampled | FmReceiver.cpp:440 | the macro returns the lower bound, the upper bound or the third sample; a result outside the bounds is the third sample, after a first sample not below the lower bound and a second not above the upper one |
| Receiver.ConstrainSteady | FmReceiver.cpp:440 | with three equal samples the macro is the clamp `Constrain` |
| Receiver.StrengthValue | FmReceiver.cpp:440 | `strength_value` is a 10-bit reading and is what the macro returns for the three samples |
| Receiver.Smooth | FmReceiver.cpp:420 | for converter readings the filtered value lies between the old value and the reading |
| Receiver.SmoothSettles | FmReceiver.cpp:420 | a steady reading is a fixed point of the filter |
| Receiver.SmoothMoves | FmReceiver.cpp:420 | the filter moves down exactly when the reading is lower, and moves up exactly when the reading is at least 4 higher |
| Receiver.BarCount | FmReceiver.cpp:440-441 | the bar count is 0..11 or 244..252; from a strength of 400 up it is (strength - 400) / 52, and below 400 the 16-bit wrap makes it at least 244 |
| Receiver.BarArithmetic | FmReceiver.cpp:441 | the 16-bit unsigned expression `(5 * (v - 400)) / 260` narrowed to a byte: (v - 400) / 52 from 400 up, and 244..252 below 400 |
| Receiver.ResampledStrength | FmReceiver.cpp:440-441 | samples (500, 500, 399) give strength 399, 252 bars and the pair 0xF3, 0xF7; samples (500, 500, 700) give strength 700, five bars and a NUL right glyph |
| Receiver.SteadyBarsAtMostFive | FmReceiver.cpp:440-441 | a steady signal shows at most five bars |
| Receiver.BarThresholds | FmReceiver.cpp:440-441 | for a steady signal, at least k bars exactly when the reading reaches 400 + 52k |
| Receiver.BarCountMonotone | FmReceiver.cpp:440-441 | for steady signals, a stronger reading never shows fewer bars |
| Receiver.BelowSpanTopFewerBars | FmReceiver.cpp:440-441 | for a steady signal, a reading below 660 gives fewer than five bars |
| Receiver.WeakSignalIff | FmReceiver.cpp:440 | the strength is below 660 exactly when the first sample is below 400, or the second is at most 660 and the third below 660; for a steady signal, exactly when the reading is below 660 |
| Receiver.WeakSignalBars | FmReceiver.cpp:440-441 | a strength below 660 gives fewer than five bars or a wrapped count of 244 or more, so neither glyph is NUL |
| Receiver.RetuneCalls | FmReceiver.cpp:431-436 | the retune sets both clocks to the oscillator frequency times 10^6 hundredths of a hertz, CLK0 upright and CLK1 inverted |
| Receiver.GlyphDownloads | FmReceiver.cpp:372-392 | sixteen downloads in order, the k-th with code 0xF0 + k and the k-th bitmap |
| Receiver.SendAll | FmReceiver.cpp:372-392 | the commands' encodings are appended back to back, no field changes, and the appended bytes decode back to exactly the commands |
| Receiver.ShowSpectrumOnly | FmReceiver.cpp:397-398 | the spectrum field is enabled and the graticule disabled, nothing is sent, every appearance is kept, stale fields stay stale, and no other slot changes |
| Receiver.Retune | FmReceiver.cpp:425-429 | retunes exactly when the channel changed, to its oscillator frequency, and always keeps the oscillator frequency of the current channel |
| Receiver.Setup | FmReceiver.cpp:368-398 | `begin` and then the sixteen downloads go on the line; the spectrum is all '_'; the spectrum field is enabled and the graticule disabled; every panel field is stale with its appearance kept; the invariant (every cell '_' or a glyph a bar count can produce) holds |
| Receiver.InBand | FmReceiver.cpp:421-456 | every converter reading tunes within the band, and the window read and pair write stay inside the 255 cells |
| Receiver.Step | FmReceiver.cpp:409-480 | one iteration: filtered tuning; last channel updated; synthesizer calls exactly on a channel change (always on the first); the line grows by exactly the redraw's bytes, computed from the previous spectrum; the spectrum write; NUL-free while the strength is below 660; invariant kept |
| Receiver.Run | FmReceiver.cpp:409-480 | the loop over readings keeps the invariant and only grows the line; strengths below 660 keep a NUL-free spectrum NUL-free |
| Receiver.PairInsideWindow | FmReceiver.cpp:453-480 | for every in-band frequency the pair written lies among the 14 displayed cells, and both the read and the write stay below cell 255 |
| Receiver.LockedIff | FmReceiver.cpp:477 | the write guard holds exactly when the RF frequency is within 40 kHz of its channel centre |
| Receiver.ChannelPair | FmReceiver.cpp:477-479 | a locked write for a channel always goes to the pair 7 cells after that channel's own offset |
| Receiver.PairsSeparateChannels | FmReceiver.cpp:477-479 | two locked frequencies write the same pair exactly when they share a channel |
| Receiver.ZeroOscillatorAtBandEdges | FmReceiver.cpp:425-433 | the synthesizer gets oscillator frequency 0 exactly for tuning values below 12 or above 1011 |
| Receiver.RecordKeepsCells | FmReceiver.cpp:477-480 | for every bar count line 441 can produce, the pair write keeps every cell '_' or a reachable glyph |
| Receiver.GlyphsAreCells | FmReceiver.cpp:478-479 | both glyphs of every producible bar count are cell characters: '_', 0x00..0x06 or 0xEB..0xFF |
| Receiver.RecordKeepsNulFree | FmReceiver.cpp:477-480 | a bar count other than 5 and 9 never writes a NUL |
| Receiver.PowerOn | FmReceiver.cpp:239-252 | from power-on to the first iteration: the six fields are registered, then `setup` runs, and the invariant holds |

## Left out

- The Si5351 driver is a foreign library. Its initialisation, the failure print loop and the PLL source
  selection are left out, and the retune is modelled as the list of calls it makes (`SynthCall`).
- Hardware I/O is left out:
  - the busy-pin wait;
  - `SoftwareSerial` and `Serial`;
  - `pinMode`, `digitalWrite` and `delay`.

  Serial output is an append-only byte sequence, and `analogRead` results are parameters of
  `Receiver.Step`.
- The sixteen custom-glyph bitmaps are a parameter of `Receiver.Setup`. Their pixel contents are
  left out. Their order is modelled: code 0xF0 + k receives bitmap k (`Receiver.GlyphDownloads`), so
  the bar glyphs F0..F3, the left halves F8..FB and the right halves FC..FF stay paired with the codes
  the loop writes.
- `loop()` computes `fm_channel` and declares `last_fm_channel`, but neither is ever used, so neither
  is part of the model.
- FmReceiver.cpp:416 and FmReceiver.cpp:440 both declare `strength_value` in the same block. C++
  rejects a redeclaration in one scope, so the file as written does not compile. The model takes the
  declaration at line 440, with its `constrain` initialiser, as the value that line 441 reads.
- Arduino `String` internals are left out. A `String` is its byte sequence, and `String(...) + ...`
  is concatenation.
- `sprintf` is modelled only for the `"%3d.%1d"` format, with non-negative values.
- Protocol.EncodeAll: states only the single-command case in its contract. The concatenation property is `Protocol.EncodeAllCons`.
- Receiver.BarCount: models the classic AVR core only. On a core where `constrain` is a function
  and `int` is 32 bits, line 440 reads the pin once and `v - 400` cannot wrap, so the bar count is
  the steady clamp, `BarCount(Steady(x))` in 0..5 (`Receiver.SteadyBarsAtMostFive`). The wrapped
  counts 244..252 of `Receiver.BarArithmetic` then cannot occur. No separate member models that build.
- Receiver.Run: returns the synthesizer calls but does not relate them to the channel changes across the whole run. `Receiver.Step` states that relation for each iteration.

=== FILE: field.dfy ===
/**
 `VFD::Field`: a positioned, styled text region of the display with a
 sticky stale flag. Setters compare before they assign and raise the flag
 only on a real change; `Update` re-sends the region only when it is enabled
 and stale, then lowers the flag.
 */
module DisplayField {
  import opened Native
  import opened Protocol

  /** One field. `value` is the Arduino `String` it holds, as bytes. */
  datatype Field = Field(
    x: Byte, y: Byte, width: Byte, xmag: Byte, ymag: Byte,
    value: seq<Byte>,
    enabled: bool,
    stale: bool)

  /** Everything about a field that reaches the device when it is re-sent. */
  datatype Appearance = Appearance(
    x: Byte, y: Byte, width: Byte, xmag: Byte, ymag: Byte,
    value: seq<Byte>)

  function Look(f: Field): Appearance
  {
    Appearance(f.x, f.y, f.width, f.xmag, f.ymag, f.value)
  }

  /**
   A slot as the constructor leaves it: enabled, not stale, empty value.
   The constructor does not initialise the geometry, but the slots live in
   the global `vfd` object, whose static storage starts zeroed.
   */
  const Unconfigured: Field := Field(0, 0, 0, 0, 0, [], true, false)

  function SetEnabled(f: Field, enabled: bool): (r: Field)
    ensures r.enabled == enabled && r.stale
    ensures Look(r) == Look(f)
  {
    f.(enabled := enabled, stale := true)
  }

  function SetValue(f: Field, v: seq<Byte>): (r: Field)
    ensures Look(r) == Look(f).(value := v)
    ensures r.enabled == f.enabled
    ensures r.stale <==> f.stale || Look(r) != Look(f)
  {
    f.(stale := f.stale || v != f.value, value := v)
  }

  function SetPosition(f: Field, x: Byte, y: Byte): (r: Field)
    ensures Look(r) == Look(f).(x := x, y := y)
    ensures r.enabled == f.enabled
    ensures r.stale <==> f.stale || Look(r) != Look(f)
  {
    f.(stale := f.stale || x != f.x || y != f.y, x := x, y := y)
  }

  function SetFontWidth(f: Field, width: Byte): (r: Field)
    ensures Look(r) == Look(f).(width := width)
    ensures r.enabled == f.enabled
    ensures r.stale <==> f.stale || Look(r) != Look(f)
  {
    f.(stale := f.stale || width != f.width, width := width)
  }

  function SetFontMagnification(f: Field, xmag: Byte, ymag: Byte): (r: Field)
    ensures Look(r) == Look(f).(xmag := xmag, ymag := ymag)
    ensures r.enabled == f.enabled
    ensures r.stale <==> f.stale || Look(r) != Look(f)
  {
    f.(stale := f.stale || xmag != f.xmag || ymag != f.ymag, xmag := xmag, ymag := ymag)
  }

  function Enstale(f: Field): (r: Field)
    ensures r.stale
    ensures Look(r) == Look(f) && r.enabled == f.enabled
  {
    f.(stale := true)
  }

  /**
   What re-sending a field puts on the line: magnification, font width,
   cursor position, then the characters of the value up to any NUL.
   */
  function Render(a: Appearance): (r: seq<Byte>)
    ensures |r| == 17 + |CString(a.value)| && r[17..] == CString(a.value)
  {
    var m, w, c := Encode(Magnify(a.xmag, a.ymag)), Encode(FontWidth(a.width)), Encode(Cursor(a.x, a.y));
    HeaderThenText(m, w, c, CString(a.value));
    m + (w + (c + CString(a.value)))
  }

  /** Three commands of 6, 5 and 6 bytes, then the text: the text starts at byte 17. */
  lemma HeaderThenText(m: seq<Byte>, w: seq<Byte>, c: seq<Byte>, text: seq<Byte>)
    requires |m| == 6 && |w| == 5 && |c| == 6
    ensures |m + (w + (c + text))| == 17 + |text| && (m + (w + (c + text)))[17..] == text
  {
  }

  /** A field that `update` leaves alone: not both enabled and stale. */
  predicate Settled(f: Field)
  {
    !(f.enabled && f.stale)
  }

  /** `Field::update`: the field afterwards, and the bytes written. */
  function Update(f: Field): (r: (Field, seq<Byte>))
    ensures r.1 != [] <==> f.enabled && f.stale
    ensures r.1 != [] ==> r.1 == Render(Look(f))
    ensures r.1 == [] ==> r.0 == f
    ensures Look(r.0) == Look(f) && r.0.enabled == f.enabled
    ensures Settled(r.0)
  {
    if f.enabled && f.stale then
      (f.(stale := false), Render(Look(f)))
    else
      (f, [])
  }

  /** `Field::set_value_and_update`. */
  function SetValueAndUpdate(f: Field, v: seq<Byte>): (r: (Field, seq<Byte>))
    ensures Look(r.0) == Look(f).(value := v) && r.0.enabled == f.enabled
    ensures Settled(r.0)
    ensures r.1 != [] <==> f.enabled && (f.stale || v != f.value)
    ensures r.1 != [] ==> r.1 == Render(Look(f).(value := v))
  {
    Update(SetValue(f, v))
  }

  /** The decoded order of a re-send: magnification, width, cursor, then the text. */
  lemma RenderSequence(a: Appearance)
    ensures var out := Render(a);
      && |out| == 17 + |CString(a.value)|
      && Parse(out) == Some((Magnify(a.xmag, a.ymag), 6))
      && Parse(out[6..]) == Some((FontWidth(a.width), 5))
      && Parse(out[11..]) == Some((Cursor(a.x, a.y), 6))
      && out[17..] == CString(a.value)
  {
    var m, w, c := Magnify(a.xmag, a.ymag), FontWidth(a.width), Cursor(a.x, a.y);
    assert |Encode(m)| == 6 && |Encode(w)| == 5 && |Encode(c)| == 6;
    ParseThree(m, w, c, CString(a.value));
  }

  /** A control sequence at the head of `s` decodes, and what follows it is `rest`. */
  lemma ParseAt(c: Command, s: seq<Byte>, rest: seq<Byte>)
    requires IsControl(c) && WellFormed(c) && s == Encode(c) + rest
    ensures Parse(s) == Some((c, |Encode(c)|)) && s[|Encode(c)|..] == rest
  {
    ParseEncode(c, rest);
  }

  /** Three control sequences followed by text decode one after another, leaving the text. */
  lemma ParseThree(c1: Command, c2: Command, c3: Command, text: seq<Byte>)
    requires IsControl(c1) && WellFormed(c1) && IsControl(c2) && WellFormed(c2) && IsControl(c3) && WellFormed(c3)
    ensures var out, n1, n2, n3 := Encode(c1) + (Encode(c2) + (Encode(c3) + text)), |Encode(c1)|, |Encode(c2)|, |Encode(c3)|;
      && |out| == n1 + n2 + n3 + |text|
      && Parse(out) == Some((c1, n1))
      && Parse(out[n1..]) == Some((c2, n2))
      && Parse(out[n1 + n2..]) == Some((c3, n3))
      && out[n1 + n2 + n3..] == text
  {
    var e1, e2, e3 := Encode(c1), Encode(c2), Encode(c3);
    var out := e1 + (e2 + (e3 + text));
    ParseAt(c1, out, e2 + (e3 + text));
    ParseAt(c2, out[|e1|..], e3 + text);
    ParseAt(c3, out[|e1| + |e2|..], text);
  }

  /** A second `update` with no mutation in between writes nothing. */
  lemma UpdateTwice(f: Field)
    ensures Update(Update(f).0).1 == []
    ensures Update(Update(f).0).0 == Update(f).0
  {
  }

  /** The mutations a field offers between updates. */
  datatype Edit =
    | NewValue(v: seq<Byte>)
    | NewPosition(x: Byte, y: Byte)
    | NewFontWidth(width: Byte)
    | NewMagnification(xmag: Byte, ymag: Byte)
    | NewEnabled(enabled: bool)
    | MakeStale

  function Apply(f: Field, e: Edit): Field
  {
    match e
    case NewValue(v) => SetValue(f, v)
    case NewPosition(x, y) => SetPosition(f, x, y)
    case NewFontWidth(w) => SetFontWidth(f, w)
    case NewMagnification(xm, ym) => SetFontMagnification(f, xm, ym)
    case NewEnabled(b) => SetEnabled(f, b)
    case MakeStale => Enstale(f)
  }

  function ApplyAll(f: Field, es: seq<Edit>): Field
    decreases |es|
  {
    if |es| == 0 then f else ApplyAll(Apply(f, es[0]), es[1..])
  }

  /**
   The dirty-tracking invariant: either the field is marked stale, or the
   device still shows exactly the field's appearance (`shown` is what the
   last re-send carried).
   */
  predicate Current(f: Field, shown: Appearance)
  {
    f.stale || Look(f) == shown
  }

  /** No mutation loses a change: each keeps the invariant, and none lowers the flag. */
  lemma EditKeepsCurrent(f: Field, e: Edit, shown: Appearance)
    requires Current(f, shown)
    ensures Current(Apply(f, e), shown)
    ensures f.stale ==> Apply(f, e).stale
  {
  }

  lemma {:induction false} EditsKeepCurrent(f: Field, es: seq<Edit>, shown: Appearance)
    requires Current(f, shown)
    ensures Current(ApplyAll(f, es), shown)
    ensures f.stale ==> ApplyAll(f, es).stale
    decreases |es|
  {
    if |es| > 0 {
      EditKeepsCurrent(f, es[0], shown);
      EditsKeepCurrent(Apply(f, es[0]), es[1..], shown);
    }
  }

  /**
   `update` re-establishes the invariant for what it sends, and an enabled
   field that `update` leaves silent is already shown as it is.
   */
  lemma UpdateKeepsCurrent(f: Field, shown: Appearance)
    requires Current(f, shown)
    ensures var (g, out) := Update(f);
      && (out != [] ==> Current(g, Look(f)) && !g.stale)
      && (out == [] ==> Current(g, shown))
      && (out == [] && f.enabled ==> Look(f) == shown)
  {
  }

  /** The setters that compare before they assign. */
  predicate Comparing(e: Edit)
  {
    e.NewValue? || e.NewPosition? || e.NewFontWidth? || e.NewMagnification?
  }

  /**
   Re-setting an up-to-date field to what it already holds never makes it
   send again, however many times it is done.
   */
  lemma {:induction false} UnchangedFieldStaysQuiet(f: Field, es: seq<Edit>)
    requires f.enabled && !f.stale
    requires forall i :: 0 <= i < |es| ==> Comparing(es[i]) && Look(Apply(f, es[i])) == Look(f)
    ensures ApplyAll(f, es) == f
    ensures Update(ApplyAll(f, es)).1 == []
    decreases |es|
  {
    if |es| > 0 {
      assert Comparing(es[0]);
      assert Apply(f, es[0]) == f;
      UnchangedFieldStaysQuiet(f, es[1..]);
    }
  }
}

=== FILE: frequency.dfy ===
/**
 The receiver's frequency arithmetic, every frequency in units of 10 kHz:
 tuning reading to RF frequency, RF frequency to the centre of its 200 kHz
 channel, RF frequency to a 100 kHz channel index, and channel frequency to
 the local-oscillator frequency of the split-IF mixer.
 */
module Frequency {
  import opened Native

  /** The tunable band, 98.0 MHz - 10.24 MHz to 98.0 MHz + 10.24 MHz. */
  const TuneMin: U16 := 8776
  const TuneMax: U16 := 10824
  const TuneSpan: U16 := TuneMax - TuneMin

  /** The intermediate frequency, 10.7 MHz. */
  const IfOffset: nat := 1070

  /** Below this channel frequency the oscillator sits under the RF, from here on above it. */
  const Split: nat := 9800

  /** The channel frequencies for which an oscillator frequency is defined. */
  const LoBandMin: nat := 8800
  const LoBandMax: nat := 10800

  /** `freq_10khz_to_fm_channel`'s answer outside the band. */
  const NoChannel: Byte := 255

  /** Readings of the 10-bit analog-to-digital converter. */
  const AdcMax: nat := 1023

  /** The largest reading for which the 16-bit result has not wrapped around. */
  const LastUnwrapped: nat := 28379

  /**
   `get_lo_freq_10khz_for_rf_freq_10khz`: the oscillator is 10.7 MHz below
   the channel in the lower half of the band and 10.7 MHz above it in the
   upper half; 0 stands for "no oscillator frequency".
   */
  function LoFreq(rf: U16): (lo: U16)
    ensures lo != 0 <==> LoBandMin <= rf <= LoBandMax
    ensures lo != 0 ==> Abs(lo - rf) == IfOffset
    ensures lo != 0 ==> (lo < rf <==> rf < Split)
  {
    if LoBandMin <= rf < Split then rf - IfOffset
    else if Split <= rf <= LoBandMax then rf + IfOffset
    else 0
  }

  /**
   The two halves of the band map to disjoint oscillator ranges, so a
   defined oscillator frequency determines the channel it serves.
   */
  lemma LoFreqInjective(a: U16, b: U16)
    requires LoFreq(a) != 0 && LoFreq(a) == LoFreq(b)
    ensures a == b
  {
  }

  /**
   `tuning_value_to_freq_10khz`: the reading scaled by span/1024 in 32-bit
   arithmetic onto the band, the sum truncated to 16 bits.
   */
  function TuningToFreq(reading: U32): (rf: U16)
    ensures reading <= LastUnwrapped ==> rf == TuneMin + 2 * reading
    ensures reading <= AdcMax ==> TuneMin <= rf <= TuneMax - 2
  {
    var scaled := ToU32(TuneSpan * reading) / 1024;
    assert TuneSpan * reading == 1024 * (2 * reading);
    ToU16(TuneMin + scaled)
  }

  /** Over every reading that does not overflow 16 bits, a higher reading never tunes lower. */
  lemma TuningMonotone(a: U32, b: U32)
    requires a <= b <= LastUnwrapped
    ensures TuningToFreq(a) <= TuningToFreq(b)
  {
  }

  /**
   The band's end points. Because the divisor is 1024, not 1023, the top
   reading reaches 2 units below `TuneMax`; the middle reading is the split.
   */
  lemma TuningEndpoints()
    ensures TuningToFreq(0) == TuneMin
    ensures TuningToFreq(512) == Split
    ensures TuningToFreq(AdcMax) == TuneMax - 2
  {
  }

  /** Beyond `LastUnwrapped` the 16-bit sum wraps to the bottom of the range. */
  lemma TuningWraps()
    ensures TuningToFreq(LastUnwrapped) == 0xFFFE
    ensures TuningToFreq(LastUnwrapped + 1) == 0
  {
  }

  lemma DivideByTen(x: nat)
    requires x < TuneSpan
    ensures (2048 * x) / (10 * TuneSpan) == x / 10
  {
    var q := x / 10;
    var r := x % 10;
    assert 2048 * x == 20480 * q + 2048 * r;
    assert 0 <= 2048 * r < 20480;
  }

  /**
   `freq_10khz_to_fm_channel`: the number of whole 100 kHz steps above the
   bottom of the band, or `NoChannel` outside it.
   */
  function ChannelIndex(freq: U32): (c: Byte)
    ensures c == NoChannel <==> !(TuneMin <= freq < TuneMax)
    ensures TuneMin <= freq < TuneMax ==> c <= 204 && TuneMin + 10 * c <= freq < TuneMin + 10 * (c + 1)
  {
    if TuneMin <= freq < TuneMax then
      DivideByTen(freq - TuneMin);
      ToByte((2048 * (freq - TuneMin)) / (10 * TuneSpan))
    else
      NoChannel
  }

  /**
   `rf_freq_10khz_to_channel_freq_10khz`: the centre of the 200 kHz raster
   cell holding `rf`; centres sit 100 kHz into each cell.
   */
  function ChannelFreq(rf: U16): (ch: U16)
    ensures ch % 20 == 10
    ensures ch - 10 <= rf < ch + 10
    ensures rf - 9 <= ch <= rf + 10
  {
    (rf / 20) * 20 + 10
  }

  /** The raster centre `ChannelFreq` picks is the only one in the half-open cell [c - 10, c + 10) around `rf`. */
  lemma ChannelFreqUnique(rf: U16, c: int)
    requires c % 20 == 10 && c - 10 <= rf < c + 10
    ensures ChannelFreq(rf) == c
  {
    var k := (c - 10) / 20;
    assert c == 20 * k + 10;
    assert 20 * k <= rf < 20 * k + 20;
    assert rf / 20 == k;
  }

  lemma ChannelFreqIdempotent(rf: U16)
    ensures ChannelFreq(ChannelFreq(rf)) == ChannelFreq(rf)
  {
    var ch := ChannelFreq(rf);
    ChannelFreqUnique(ch, ch);
  }

  lemma ChannelFreqMonotone(a: U16, b: U16)
    requires a <= b
    ensures ChannelFreq(a) <= ChannelFreq(b)
  {
    assert a / 20 <= b / 20;
  }
}

=== FILE: loop.dfy ===
/**
 The receiver's main loop: `setup()` and one `loop()` iteration as a step
 from one panel state to the next. The state is what the firmware keeps
 between iterations (the static locals of `loop()`, the spectrum history
 and the display object); the analog readings come in as parameters and
 the synthesizer calls go out as a list.
 */
module Receiver {
  import opened Native
  import opened Protocol
  import opened DisplayField
  import opened Registry
  import opened Frequency
  import opened Spectrum
  import opened Screen

  /** `lock_detect_min` and `lock_detect_max`: the span of the lock-detect reading. */
  const LockDetectMin: nat := 400
  const LockDetectMax: nat := 660

  /** Each strength bar takes a fifth of the lock-detect span. */
  const BarStep: nat := (LockDetectMax - LockDetectMin) / 5

  /** The value the tuning filter starts from, the middle of the band. */
  const TuningStart: U16 := 512

  /** `constrain(x, lo, hi)`. */
  function Constrain(x: int, lo: int, hi: int): (r: int)
    requires lo <= hi
    ensures lo <= r <= hi
    ensures lo <= x <= hi ==> r == x
  {
    if x < lo then lo else if hi < x then hi else x
  }

  /**
   The tuning filter `(3*tuning_value + (uint32_t)reading) / 4`: the
   product is formed in 16-bit `unsigned int`, the sum in 32 bits, and the
   quotient stored back into 16 bits. For readings of the 10-bit converter
   the new value lies between the old value and the reading.
   */
  function Smooth(tuning: U16, reading: U32): (t: U16)
    ensures tuning <= AdcMax && reading <= AdcMax ==> Min(tuning, reading) <= t <= Max(tuning, reading)
  {
    ToU16(ToU32(ToU16(3 * tuning) + reading) / 4)
  }

  /** A steady reading is a fixed point of the filter. */
  lemma SmoothSettles(t: U16)
    requires t <= AdcMax
    ensures Smooth(t, t) == t
  {
  }

  /**
   The filter rounds down: it always moves towards a lower reading, but a
   reading less than 4 above the current value leaves it where it is.
   */
  lemma SmoothMoves(t: U16, reading: U32)
    requires t <= AdcMax && reading <= AdcMax
    ensures Smooth(t, reading) < t <==> reading < t
    ensures Smooth(t, reading) > t <==> reading >= t + 4
  {
    assert Smooth(t, reading) == (3 * t + reading) / 4;
  }

  /** A reading of the 10-bit converter, as `analogRead` returns it. */
  type Sample = x: nat | x <= AdcMax

  /**
   The converter readings behind one `constrain(analogRead(lock_detect_pin),
   lock_detect_min, lock_detect_max)`. The AVR core defines `constrain` as
   a macro that names its first argument three times, so the pin is read
   afresh for the comparison with the lower bound, for the comparison with
   the upper bound (when the first passes), and for the value itself (when
   both pass).
   */
  datatype Samples = Samples(first: Sample, second: Sample, third: Sample)

  /** Three equal readings: a signal that holds still while the line runs. */
  function Steady(x: Sample): Samples
  {
    Samples(x, x, x)
  }

  /**
   The macro on three readings: the lower bound when the first is below
   it, else the upper bound when the second is above it, else the third,
   which is compared with neither bound and so can lie outside them.
   */
  function ConstrainSampled(s: Samples, lo: int, hi: int): (r: int)
    ensures r == lo || r == hi || r == s.third
    ensures lo <= hi && (r < lo || hi < r) ==> r == s.third && lo <= s.first && s.second <= hi
  {
    if s.first < lo then lo else if hi < s.second then hi else s.third
  }

  /** For a steady signal the macro is the clamp. */
  lemma ConstrainSteady(x: Sample, lo: int, hi: int)
    requires lo <= hi
    ensures ConstrainSampled(Steady(x), lo, hi) == Constrain(x, lo, hi)
  {
  }

  /** `strength_value`: the macro's result; the store into a `uint16_t` loses nothing. */
  function StrengthValue(s: Samples): (v: U16)
    ensures v <= AdcMax
    ensures v == ConstrainSampled(s, LockDetectMin, LockDetectMax)
  {
    ToU16(ConstrainSampled(s, LockDetectMin, LockDetectMax))
  }

  /** The bar counts line 441 can produce from a converter reading. */
  predicate BarRange(n: int)
  {
    0 <= n <= 11 || 244 <= n <= 252
  }

  /**
   `num_bars`: `(5 * (strength_value - lock_detect_min)) / (lock_detect_max -
   lock_detect_min)` in 16-bit unsigned arithmetic, stored into a `uint8_t`.
   From the bottom of the span up it counts whole fifths of the span (0 to
   5 inside it, up to 11 above it); below the span the subtraction wraps
   and the count lands in 244..252. Only the meter clamps it to 4.
   */
  function BarCount(s: Samples): (n: Byte)
    ensures BarRange(n)
    ensures LockDetectMin <= StrengthValue(s) ==> n == (StrengthValue(s) - LockDetectMin) / BarStep
    ensures StrengthValue(s) < LockDetectMin ==> 244 <= n
  {
    var v := StrengthValue(s);
    BarArithmetic(v);
    ToByte(ToU16(5 * ToU16(v - LockDetectMin)) / (LockDetectMax - LockDetectMin))
  }

  /** The 16-bit arithmetic of line 441 for every converter reading. */
  lemma BarArithmetic(v: nat)
    requires v <= AdcMax
    ensures var n := ToByte(ToU16(5 * ToU16(v - LockDetectMin)) / (LockDetectMax - LockDetectMin));
      && BarRange(n)
      && (LockDetectMin <= v ==> n == (v - LockDetectMin) / BarStep)
      && (v < LockDetectMin ==> 244 <= n)
  {
    if LockDetectMin <= v {
      var u := v - LockDetectMin;
      assert ToU16(u) == u && ToU16(5 * u) == 5 * u;
      var q := u / 52;
      assert 52 * q <= u < 52 * q + 52;
      assert 260 * q <= 5 * u < 260 * q + 260;
      assert (5 * u) / 260 == q;
    } else {
      var e := LockDetectMin - v;
      assert v - LockDetectMin == 0x1_0000 - e - 0x1_0000;
      assert ToU16(v - LockDetectMin) == 0x1_0000 - e;
      assert 5 * (0x1_0000 - e) == (0x1_0000 - 5 * e) + 4 * 0x1_0000;
      assert ToU16(5 * (0x1_0000 - e)) == 0x1_0000 - 5 * e;
      var w := (0x1_0000 - 5 * e) / 260;
      assert 244 <= w <= 252;
    }
  }

  /**
   Readings that change while the macro runs escape the clamp. After two
   readings of 500, a third of 399 gives 252 bars, recorded as 0xF3 and
   0xF7, and a third of 700 gives five bars and so the NUL, although
   neither of the readings compared with the upper bound exceeds it.
   */
  lemma ResampledStrength()
    ensures StrengthValue(Samples(500, 500, 399)) == 399
    ensures BarCount(Samples(500, 500, 399)) == 252
    ensures LeftGlyph(252) == 0xF3 && RightGlyph(252) == 0xF7
    ensures StrengthValue(Samples(500, 500, 700)) == 700
    ensures BarCount(Samples(500, 500, 700)) == 5 && RightGlyph(5) == 0
  {
    var s := Samples(500, 500, 399);
    assert StrengthValue(s) == 399;
    var u: int := ToU16(399 - LockDetectMin);
    assert u == 0xFFFF;
    var w: int := ToU16(5 * u);
    assert w == 0xFFFB;
    assert BarCount(s) == ToByte(w / 260);
  }

  /** A steady signal shows at most five bars. */
  lemma SteadyBarsAtMostFive(x: Sample)
    ensures BarCount(Steady(x)) <= 5
  {
    ConstrainSteady(x, LockDetectMin, LockDetectMax);
    var v := StrengthValue(Steady(x));
    var u := v - LockDetectMin;
    assert 0 <= u <= 260 && BarCount(Steady(x)) == u / 52;
    assert 52 * (u / 52) <= u;
  }

  /** For a steady signal the meter shows at least `k` bars exactly when the reading reaches `k` fifths of the span. */
  lemma BarThresholds(x: Sample, k: nat)
    requires 1 <= k <= 5
    ensures BarCount(Steady(x)) >= k <==> x >= LockDetectMin + BarStep * k
  {
    ConstrainSteady(x, LockDetectMin, LockDetectMax);
    var v := StrengthValue(Steady(x));
    if LockDetectMin <= x {
      var u := v - LockDetectMin;
      assert u / 52 >= k <==> u >= 52 * k;
    }
  }

  /** For a steady signal only a reading at the top of the span lights all five bars. */
  lemma BelowSpanTopFewerBars(x: Sample)
    requires x < LockDetectMax
    ensures BarCount(Steady(x)) < 5
  {
    BarThresholds(x, 5);
  }

  /** For steady signals a stronger reading never shows fewer bars. */
  lemma BarCountMonotone(a: Sample, b: Sample)
    requires a <= b
    ensures BarCount(Steady(a)) <= BarCount(Steady(b))
  {
    ConstrainSteady(a, LockDetectMin, LockDetectMax);
    ConstrainSteady(b, LockDetectMin, LockDetectMax);
    var va, vb := StrengthValue(Steady(a)), StrengthValue(Steady(b));
    assert va <= vb;
    assert (va - LockDetectMin) / 52 <= (vb - LockDetectMin) / 52;
  }

  /**
   The strength value stays below the top of the span exactly when the
   first reading is below the span, or the second does not exceed the span
   and the third is below its top; for a steady signal, when the reading
   is below 660.
   */
  lemma WeakSignalIff(s: Samples)
    ensures StrengthValue(s) < LockDetectMax <==>
      s.first < LockDetectMin || (s.second <= LockDetectMax && s.third < LockDetectMax)
    ensures s == Steady(s.first) ==> (StrengthValue(s) < LockDetectMax <==> s.first < LockDetectMax)
  {
  }

  /** A strength value below the top of the span never gives a bar count whose glyphs include a NUL. */
  lemma WeakSignalBars(s: Samples)
    requires StrengthValue(s) < LockDetectMax
    ensures BarCount(s) < 5 || 244 <= BarCount(s)
  {
  }

  /** The synthesizer's first two outputs, which drive the quadrature mixer. */
  datatype Clock = Clk0 | Clk1

  /** A call into the Si5351 driver; frequencies are in hundredths of a hertz. */
  datatype SynthCall =
    | SetFreq(centiHertz: nat, clock: Clock)
    | SetClockInvert(clock: Clock, inverted: bool)

  /** Hundredths of a hertz in 10 kHz. */
  const CentiHertzPer10kHz: nat := 1000000

  /**
   The retune: both clocks to the oscillator frequency, CLK0 upright and
   CLK1 inverted. There is no guard against an oscillator frequency of 0.
   */
  function RetuneCalls(lo: U16): (cs: seq<SynthCall>)
    ensures |cs| == 4
    ensures forall k :: 0 <= k < 2 ==> cs[k].SetFreq? && cs[k].centiHertz == lo * CentiHertzPer10kHz
    ensures cs[0].clock == Clk0 && cs[1].clock == Clk1
    ensures cs[2] == SetClockInvert(Clk0, false) && cs[3] == SetClockInvert(Clk1, true)
  {
    [SetFreq(lo * CentiHertzPer10kHz, Clk0), SetFreq(lo * CentiHertzPer10kHz, Clk1),
     SetClockInvert(Clk0, false), SetClockInvert(Clk1, true)]
  }

  /**
   What the firmware keeps between iterations: `tuning_value`,
   `last_channel_freq_10khz`, `lo_freq_10khz`, `spectrum[]` and the display.
   */
  datatype State = State(tuning: U16, lastChannel: U16, lo: U16, spectrum: seq<Byte>, display: Vfd)

  /** What one iteration leaves behind, and what it asks of the synthesizer. */
  datatype Outcome = Outcome(state: State, synth: seq<SynthCall>)

  /**
   The characters a spectrum cell can hold: '_', or a glyph written for a
   bar count line 441 can produce. Counts 1 to 11 give 0xF8 to 0xFF and,
   wrapped, 0x00 to 0x06 (NUL among them); counts 244 to 252 give 0xEB to
   0xF7.
   */
  predicate CellValue(b: Byte)
  {
    b == Empty || b <= 0x06 || 0xEB <= b
  }

  /** Both glyphs of every possible bar count are cell values. */
  lemma GlyphsAreCells(bars: Byte)
    requires BarRange(bars)
    ensures CellValue(LeftGlyph(bars)) && CellValue(RightGlyph(bars))
  {
    if 244 <= bars {
      assert LeftGlyph(bars) == bars - 9 && RightGlyph(bars) == bars - 5;
    } else if bars > 0 {
      assert LeftGlyph(bars) == (0xF7 + bars) % 0x100 && RightGlyph(bars) == (0xFB + bars) % 0x100;
    }
  }

  /**
   The loop's invariant: the tuning value stays a converter reading, the
   oscillator frequency is always the one for the last channel, the
   spectrum keeps its size and holds only spectrum characters, and the
   display holds exactly the six panel fields.
   */
  predicate Inv(p: State)
  {
    && p.tuning <= AdcMax
    && p.lo == LoFreq(p.lastChannel)
    && |p.spectrum| == Size
    && (forall k :: 0 <= k < |p.spectrum| ==> CellValue(p.spectrum[k]))
    && Valid(p.display) && p.display.count == PanelFieldCount
  }

  /** The glyph downloads of `setup`: codes 0xF0 to 0xFF, one five-row bitmap each. */
  function GlyphDownloads(bitmaps: seq<seq<Byte>>): (cs: seq<Command>)
    requires |bitmaps| == 16 && forall k :: 0 <= k < 16 ==> |bitmaps[k]| == 5
    ensures |cs| == 16
    ensures forall k :: 0 <= k < 16 ==>
      cs[k].Download? && cs[k].code == 0xF0 + k && cs[k].bitmap == bitmaps[k] && WellFormed(cs[k])
  {
    seq(16, k requires 0 <= k < 16 => Download(0xF0 + k, bitmaps[k]))
  }

  /** Device operations one after another: their encodings go on the line back to back. */
  method SendAll(d: Vfd, cs: seq<Command>) returns (r: Vfd)
    requires forall k :: 0 <= k < |cs| ==> WellFormed(cs[k])
    ensures r.slots == d.slots && r.count == d.count && r.out == d.out + EncodeAll(cs)
    ensures (forall k :: 0 <= k < |cs| ==> IsControl(cs[k])) ==> ParseStream(r.out[|d.out|..]) == Some(cs)
  {
    SentDecodes(d.out, cs);
    r := d.(out := d.out + EncodeAll(cs));
  }

  /** Control commands appended to a line decode back from where they start. */
  lemma SentDecodes(line: seq<Byte>, cs: seq<Command>)
    requires forall k :: 0 <= k < |cs| ==> WellFormed(cs[k])
    ensures (forall k :: 0 <= k < |cs| ==> IsControl(cs[k])) ==>
      ParseStream((line + EncodeAll(cs))[|line|..]) == Some(cs)
  {
    if forall k :: 0 <= k < |cs| ==> IsControl(cs[k]) {
      ParseStreamEncodeAll(cs);
      assert (line + EncodeAll(cs))[|line|..] == EncodeAll(cs);
    }
  }

  /**
   `setup()` as far as the panel is concerned: `begin`, the sixteen glyph
   downloads, the spectrum filled with '_', the spectrum field enabled and
   the graticule field disabled; the loop's static locals start at their
   initialisers (the oscillator frequency, uninitialised, at 0).
   */
  method Setup(d: Vfd, bitmaps: seq<seq<Byte>>) returns (p: State)
    requires Valid(d) && d.count == PanelFieldCount
    requires |bitmaps| == 16 && forall k :: 0 <= k < 16 ==> |bitmaps[k]| == 5
    ensures Inv(p)
    ensures p.tuning == TuningStart && p.lastChannel == 0 && p.spectrum == Blank()
    ensures p.display.out == d.out + BeginBytes + EncodeAll(GlyphDownloads(bitmaps))
    ensures p.display.slots[SpectrumSlot].enabled && !p.display.slots[GraticuleSlot].enabled
    ensures forall i :: 0 <= i < PanelFieldCount ==>
      p.display.slots[i].stale && Look(p.display.slots[i]) == Look(d.slots[i])
    ensures forall i :: 0 <= i < PanelFieldCount && i != SpectrumSlot && i != GraticuleSlot ==>
      p.display.slots[i].enabled == d.slots[i].enabled
  {
    var v1 := Begin(d);
    var v2 := SendAll(v1, GlyphDownloads(bitmaps));
    var v3 := ShowSpectrumOnly(v2);
    p := State(TuningStart, 0, 0, Blank(), v3);
  }

  /** The two `set_enabled` calls of `setup()`: spectrum on, graticule off, nothing sent. */
  method ShowSpectrumOnly(d: Vfd) returns (r: Vfd)
    requires Valid(d) && d.count == PanelFieldCount
    ensures Valid(r) && r.count == d.count && r.out == d.out
    ensures r.slots[SpectrumSlot].enabled && !r.slots[GraticuleSlot].enabled
    ensures forall i :: 0 <= i < PanelFieldCount ==>
      Look(r.slots[i]) == Look(d.slots[i]) && (d.slots[i].stale ==> r.slots[i].stale)
    ensures forall i :: 0 <= i < PanelFieldCount && i != SpectrumSlot && i != GraticuleSlot ==>
      r.slots[i] == d.slots[i]
  {
    var e := EditField(d, SpectrumSlot, NewEnabled(true));
    r := EditField(e, GraticuleSlot, NewEnabled(false));
  }

  /**
   The retune decision: the synthesizer is reprogrammed only when the
   channel differs from the last one, and the oscillator frequency kept
   always belongs to the channel now tuned.
   */
  function Retune(lastChannel: U16, lo: U16, ch: U16): (r: (U16, seq<SynthCall>))
    requires lo == LoFreq(lastChannel)
    ensures r.0 == LoFreq(ch)
    ensures r.1 != [] <==> ch != lastChannel
    ensures r.1 != [] ==> r.1 == RetuneCalls(LoFreq(ch))
  {
    if ch != lastChannel then (LoFreq(ch), RetuneCalls(LoFreq(ch))) else (lo, [])
  }

  /** Recording a bar count keeps every cell a spectrum character. */
  lemma RecordKeepsCells(cells: seq<Byte>, rf: U16, ch: U16, bars: Byte)
    requires Locked(rf, ch) ==> PairIndex(CharOffset(rf)) + 1 < |cells|
    requires forall k :: 0 <= k < |cells| ==> CellValue(cells[k])
    requires BarRange(bars)
    ensures forall k :: 0 <= k < |cells| ==> CellValue(Record(cells, rf, ch, bars)[k])
  {
    GlyphsAreCells(bars);
  }

  /** The tuning bounds every converter reading keeps the RF frequency within. */
  lemma InBand(t: U16)
    requires t <= AdcMax
    ensures var rf := TuningToFreq(t);
      && TuneMin <= rf <= TuneMax - 2
      && CharOffset(rf) + WindowLength <= Size
      && PairIndex(CharOffset(rf)) + 1 < Size
  {
  }

  /**
   One `loop()` iteration. The tuning value is filtered and converted to an
   RF frequency and its channel. The synthesizer is retuned exactly when
   the channel differs from the one of the previous iteration (always on
   the first, since no channel centre is 0), and then to that channel's
   oscillator frequency. The display is redrawn from the spectrum as it
   was before this iteration; the tuning field and the unused slots stay
   as they were, and the line only grows, ending with the centre marker.
   The line receives exactly the redraw's bytes. Last, when the RF
   frequency is within 40 kHz of the channel centre, the cell pair for the
   current offset records the bar count; no other cell ever changes,
   nothing changes when not locked, and a strength value below the top of
   the lock-detect span never writes a NUL. The loop's invariant holds
   again afterwards.
   */
  method Step(p: State, tuningReading: U32, strength: Samples) returns (r: Outcome)
    requires Inv(p) && tuningReading <= AdcMax
    ensures Inv(r.state)
    ensures r.state.tuning == Smooth(p.tuning, tuningReading)
    ensures var ch := r.state.lastChannel;
      && ch == ChannelFreq(TuningToFreq(r.state.tuning))
      && (r.synth != [] <==> ch != p.lastChannel)
      && (r.synth != [] ==> r.synth == RetuneCalls(LoFreq(ch)))
      && (p.lastChannel == 0 ==> r.synth == RetuneCalls(LoFreq(ch)))
    ensures forall k :: 0 <= k < MaxFields && !Redrawn(k) ==> r.state.display.slots[k] == p.display.slots[k]
    ensures var rf := TuningToFreq(r.state.tuning);
      && CharOffset(rf) + WindowLength <= Size
      && r.state.display.out == p.display.out + RedrawBytes(p.display, rf, r.state.lastChannel, BarCount(strength), p.spectrum)
    ensures p.display.out <= r.state.display.out && EndsWithMarker(r.state.display.out)
    ensures var rf := TuningToFreq(r.state.tuning);
      && PairIndex(CharOffset(rf)) + 1 < Size
      && Recorded(p.spectrum, r.state.spectrum, rf, r.state.lastChannel, BarCount(strength))
    ensures NulFree(p.spectrum) && StrengthValue(strength) < LockDetectMax ==> NulFree(r.state.spectrum)
    ensures var rf := TuningToFreq(r.state.tuning);
      && CharOffset(rf) + WindowLength <= Size
      && Drawn(r.state.display, p.display, rf, r.state.lastChannel, BarCount(strength), p.spectrum)
  {
    var t := Smooth(p.tuning, tuningReading);
    var rf := TuningToFreq(t);
    var ch := ChannelFreq(rf);
    var retune := Retune(p.lastChannel, p.lo, ch);
    var bars := BarCount(strength);
    InBand(t);
    var display := Show(p.display, rf, ch, bars, p.spectrum);
    RecordKeepsCells(p.spectrum, rf, ch, bars);
    if NulFree(p.spectrum) && StrengthValue(strength) < LockDetectMax {
      WeakSignalBars(strength);
      RecordKeepsNulFree(p.spectrum, rf, ch, bars);
    }
    var cells := Record(p.spectrum, rf, ch, bars);
    r := Outcome(State(t, ch, retune.0, cells, display), retune.1);
  }

  /** A run of the loop over a sequence of (tuning, lock-detect) readings. */
  datatype Reading = Reading(tuning: U32, strength: Samples)

  predicate Readable(rs: seq<Reading>)
  {
    forall k :: 0 <= k < |rs| ==> rs[k].tuning <= AdcMax
  }

  /**
   The loop over a sequence of readings: the state after them and every
   synthesizer call made on the way. The invariant holds throughout, and
   as long as the strength value stays below 660 (for a steady signal:
   the reading stays below 660) a spectrum free of NULs stays free of
   them, so the window always shows all of its cells.
   */
  method Run(p: State, rs: seq<Reading>) returns (r: Outcome)
    requires Inv(p) && Readable(rs)
    ensures Inv(r.state)
    ensures |rs| > 0 ==> r.state.lastChannel == ChannelFreq(TuningToFreq(r.state.tuning))
    ensures |rs| == 0 ==> r == Outcome(p, [])
    ensures p.display.out <= r.state.display.out
    ensures (&& NulFree(p.spectrum)
             && forall k :: 0 <= k < |rs| ==> StrengthValue(rs[k].strength) < LockDetectMax) ==> NulFree(r.state.spectrum)
  {
    var weak := forall k :: 0 <= k < |rs| ==> StrengthValue(rs[k].strength) < LockDetectMax;
    r := Outcome(p, []);
    var n := 0;
    while n < |rs|
      invariant 0 <= n <= |rs|
      invariant Inv(r.state)
      invariant n > 0 ==> r.state.lastChannel == ChannelFreq(TuningToFreq(r.state.tuning))
      invariant n == 0 ==> r == Outcome(p, [])
      invariant p.display.out <= r.state.display.out
      invariant weak && NulFree(p.spectrum) ==> NulFree(r.state.spectrum)
    {
      var o := Step(r.state, rs[n].tuning, rs[n].strength);
      if weak && NulFree(p.spectrum) {
        assert StrengthValue(rs[n].strength) < LockDetectMax;
      }
      r := Outcome(o.state, r.synth + o.synth);
      n := n + 1;
    }
  }

  /**
   Inside the band the cell pair written for the current offset lies in
   the part of the window the display shows (cells `o + 1` to `o + 14`),
   and both the window read and the pair write stay inside the 255 cells.
   */
  lemma PairInsideWindow(rf: U16)
    requires TuneMin <= rf <= TuneMax - 2
    ensures var o := CharOffset(rf); var i := PairIndex(o);
      && o + 1 <= i && i + 1 <= o + WindowLength - 2
      && i + 1 < Size && o + WindowLength <= Size
  {
  }

  /** The write guard holds exactly when the RF frequency is within 40 kHz of its channel centre. */
  lemma LockedIff(rf: U16)
    requires rf <= TuneMax
    ensures Locked(rf, ChannelFreq(rf)) <==> 6 <= rf % 20 <= 14
  {
    var ch := ChannelFreq(rf);
    assert ch - rf == 10 - rf % 20;
  }

  /**
   A locked write for a channel always goes to the same pair: the cells 7
   and 8 places after the channel centre's own offset.
   */
  lemma ChannelPair(rf: U16)
    requires TuneMin <= rf <= TuneMax - 2
    requires Locked(rf, ChannelFreq(rf))
    ensures TuneMin <= ChannelFreq(rf)
    ensures PairIndex(CharOffset(rf)) == CharOffset(ChannelFreq(rf)) + 7
    ensures PairIndex(CharOffset(rf)) == 2 * (rf / 20) - 870
  {
    LockedIff(rf);
    var ch := ChannelFreq(rf);
    var m := rf / 20;
    assert ch == 20 * m + 10;
    assert 20 * m + 6 <= rf <= 20 * m + 14;
    assert CharOffset(rf) == (rf - TuneMin) / 10;
    assert CharOffset(ch) == 2 * m - 877;
    assert CharOffset(rf) / 2 == m - 439;
  }

  /** Two locked frequencies write the same pair exactly when they share a channel. */
  lemma PairsSeparateChannels(a: U16, b: U16)
    requires TuneMin <= a <= TuneMax - 2 && Locked(a, ChannelFreq(a))
    requires TuneMin <= b <= TuneMax - 2 && Locked(b, ChannelFreq(b))
    ensures PairIndex(CharOffset(a)) == PairIndex(CharOffset(b)) <==> ChannelFreq(a) == ChannelFreq(b)
  {
    ChannelPair(a);
    ChannelPair(b);
    assert ChannelFreq(a) == 20 * (a / 20) + 10 && ChannelFreq(b) == 20 * (b / 20) + 10;
  }

  /**
   The synthesizer is sent oscillator frequency 0 exactly for the tuning
   values whose channel lies outside 88.0 - 108.0 MHz: below 12 and above 1011.
   */
  lemma ZeroOscillatorAtBandEdges(t: U16)
    requires t <= AdcMax
    ensures LoFreq(ChannelFreq(TuningToFreq(t))) == 0 <==> t < 12 || 1011 < t
  {
    var rf := TuningToFreq(t);
    assert rf == TuneMin + 2 * t;
    var m := rf / 20;
    assert ChannelFreq(rf) == 20 * m + 10;
  }

  /** Recording a bar count other than 5 and 9 writes no NUL. */
  lemma RecordKeepsNulFree(cells: seq<Byte>, rf: U16, ch: U16, bars: Byte)
    requires Locked(rf, ch) ==> PairIndex(CharOffset(rf)) + 1 < |cells|
    requires NulFree(cells) && bars != 5 && bars != 9
    ensures NulFree(Record(cells, rf, ch, bars))
  {
    GlyphsNonNul(bars);
  }

  /**
   Power-on: the static initialisers register the six fields on an empty
   display, then `setup()` runs.
   */
  method PowerOn(bitmaps: seq<seq<Byte>>) returns (p: State)
    requires |bitmaps| == 16 && forall k :: 0 <= k < 16 ==> |bitmaps[k]| == 5
    ensures Inv(p) && p.tuning == TuningStart && p.lastChannel == 0 && p.spectrum == Blank()
    ensures p.display.out == BeginBytes + EncodeAll(GlyphDownloads(bitmaps))
    ensures forall i :: 0 <= i < PanelFieldCount ==>
      Look(p.display.slots[i]) == Shape(Layout[i]) && p.display.slots[i].stale
    ensures forall i :: 0 <= i < PanelFieldCount ==> (p.display.slots[i].enabled <==> i != GraticuleSlot)
  {
    var d, handles := PanelFields(Make());
    var line := d.out;
    assert line == [];
    p := Setup(d, bitmaps);
    assert line + BeginBytes == BeginBytes;
  }
}

=== FILE: native.dfy ===
/**
 The machine-level vocabulary of the receiver firmware: the fixed-width
 integer types of the 8-bit AVR core the model assumes (where `int` is 16
 bits wide), the narrowing conversions C applies when a wider value is
 stored into one of them, an optional value standing for a possibly-NULL
 pointer, and NUL-terminated character strings.
 */
module Native {

  /** `uint8_t`, and a `char` as stored in memory. */
  type Byte = x: int | 0 <= x < 0x100

  /** `uint16_t`, and `unsigned int` on the AVR target. */
  type U16 = x: int | 0 <= x < 0x1_0000

  /** `uint32_t`. */
  type U32 = x: int | 0 <= x < 0x1_0000_0000

  /** The ASCII space character. */
  const Space: Byte := 0x20

  /** A value that may be absent: a pointer that may be NULL. */
  datatype Option<+T> = None | Some(value: T)

  /** Storing an integer into an 8-bit object keeps its low eight bits. */
  function ToByte(x: int): (r: Byte)
    ensures 0 <= x < 0x100 ==> r == x
    ensures (x - r) % 0x100 == 0
  {
    x % 0x100
  }

  /** Storing an integer into a 16-bit unsigned object keeps its low sixteen bits. */
  function ToU16(x: int): (r: U16)
    ensures 0 <= x < 0x1_0000 ==> r == x
    ensures (x - r) % 0x1_0000 == 0
  {
    x % 0x1_0000
  }

  /** Unsigned 32-bit arithmetic wraps modulo 2^32. */
  function ToU32(x: int): (r: U32)
    ensures 0 <= x < 0x1_0000_0000 ==> r == x
    ensures (x - r) % 0x1_0000_0000 == 0
  {
    x % 0x1_0000_0000
  }

  /** The `(int16_t)` cast of a 16-bit unsigned value: the same bits read in two's complement. */
  function ToInt16(x: U16): (r: int)
    ensures -0x8000 <= r < 0x8000
    ensures (x - r) % 0x1_0000 == 0
    ensures x < 0x8000 ==> r == x
  {
    if x < 0x8000 then x else x - 0x1_0000
  }

  function Abs(x: int): (r: nat)
    ensures r == x || r == -x
  {
    if x < 0 then -x else x
  }

  function Min(a: int, b: int): int
  {
    if a <= b then a else b
  }

  function Max(a: int, b: int): int
  {
    if a <= b then b else a
  }

  /** The string a `char *` denotes: the bytes before the first NUL. */
  function CString(s: seq<Byte>): (r: seq<Byte>)
    ensures r <= s
    ensures 0 !in r
    ensures |r| < |s| ==> s[|r|] == 0
  {
    if |s| == 0 || s[0] == 0 then [] else [s[0]] + CString(s[1..])
  }

  /** A byte sequence without NUL followed by a terminator reads back as itself. */
  lemma CStringOfTerminated(s: seq<Byte>, rest: seq<Byte>)
    requires 0 !in s
    ensures CString(s + [0] + rest) == s
  {
    var t := s + [0] + rest;
    assert t[|s|] == 0;
    assert CString(t) <= t;
  }
}

=== FILE: protocol.dfy ===
/**
 The command set of the GU144X16D vacuum-fluorescent display as the panel
 drives it: each device operation of class `VFD` is one `Command`, `Encode`
 gives the exact bytes it puts on the serial line, and `Parse` reads a
 control sequence back from the head of a byte stream. The busy-pin wait
 before every write only delays the bytes, so it does not appear here.
 */
module Protocol {
  import opened Native

  /** The device's write modes, `enum WriteMode { NORMAL=0, OR, AND, XOR }`. */
  datatype WriteMode = Normal | Or | And | Xor {
    function Code(): (b: Byte)
      ensures b <= 3
    {
      match this
      case Normal => 0
      case Or => 1
      case And => 2
      case Xor => 3
    }
  }

  /** The write mode a mode byte selects, if any. */
  function ModeOf(b: Byte): (m: Option<WriteMode>)
    ensures m.Some? <==> b <= 3
    ensures m.Some? ==> m.value.Code() == b
  {
    if b == 0 then Some(Normal)
    else if b == 1 then Some(Or)
    else if b == 2 then Some(And)
    else if b == 3 then Some(Xor)
    else None
  }

  datatype Command =
    | Init                                            // init()
    | Clear                                           // the byte clear() writes
    | Cursor(x: Byte, y: Byte)                        // set_cursor(x, y)
    | FontWidth(w: Byte)                              // set_font_width(w)
    | Magnify(xmag: Byte, ymag: Byte)                 // set_font_magnification(x, y)
    | Mode(mode: WriteMode)                           // set_write_mode(mode)
    | BitImage(x: Byte, y: Byte, w: Byte, h: Byte)    // the header draw() writes
    | EnableDownload                                  // set_custom_char_download_enabled(_)
    | Download(code: Byte, bitmap: seq<Byte>)         // download_custom_char(code, bitmap)
    | Payload(data: seq<Byte>)                        // text or bitmap data, written verbatim

  /** `download_custom_char` reads exactly five bitmap rows. */
  predicate WellFormed(c: Command)
  {
    c.Download? ==> |c.bitmap| == 5
  }

  predicate IsControl(c: Command)
  {
    !c.Payload?
  }

  /** The first byte of every control sequence. */
  predicate IsLead(b: Byte)
  {
    b == 0x0C || b == 0x1B || b == 0x1F
  }

  function Encode(c: Command): (r: seq<Byte>)
    requires WellFormed(c)
    ensures IsControl(c) ==> |r| > 0 && IsLead(r[0])
    ensures c.Payload? ==> r == c.data
  {
    match c
    case Init => [0x1B, 0x40]
    case Clear => [0x0C]
    case Cursor(x, y) => [0x1F, 0x24, x, 0x00, y, 0x00]
    case FontWidth(w) => [0x1F, 0x28, 0x67, 0x03, w]
    case Magnify(xm, ym) => [0x1F, 0x28, 0x67, 0x40, xm, ym]
    case Mode(m) => [0x1F, 0x77, m.Code()]
    case BitImage(x, y, w, h) => [0x1F, 0x28, 0x64, 0x21, x, 0x00, y, 0x00, w, 0x00, h, 0x00, 0x01]
    case EnableDownload => [0x1B, 0x25, 0x01]
    case Download(code, b) => [0x1B, 0x26, 0x01, code, code, 0x05, b[0], b[1], b[2], b[3], b[4]]
    case Payload(data) => data
  }

  /** The bytes a sequence of commands puts on the line, in order. */
  function EncodeAll(cs: seq<Command>): (r: seq<Byte>)
    requires forall i :: 0 <= i < |cs| ==> WellFormed(cs[i])
    ensures |cs| == 1 ==> r == Encode(cs[0])
  {
    if |cs| == 0 then [] else Encode(cs[0]) + EncodeAll(cs[1..])
  }

  /**
   Reads one control sequence from the head of `s`: the command and the
   number of bytes it occupies. Anything else (text, bitmap data, a
   truncated or unknown sequence) yields None.
   */
  function Parse(s: seq<Byte>): (r: Option<(Command, nat)>)
    ensures r.Some? ==> var (c, n) := r.value;
      && IsControl(c) && WellFormed(c)
      && 0 < n <= |s|
      && s[..n] == Encode(c)
  {
    if |s| == 0 then None
    else if s[0] == 0x0C then Some((Clear, 1))
    else if s[0] == 0x1B then
      if |s| >= 2 && s[1] == 0x40 then Some((Init, 2))
      else if |s| >= 3 && s[1] == 0x25 && s[2] == 0x01 then Some((EnableDownload, 3))
      else if |s| >= 11 && s[1] == 0x26 && s[2] == 0x01 && s[3] == s[4] && s[5] == 0x05 then
        Some((Download(s[3], s[6..11]), 11))
      else None
    else if s[0] == 0x1F then
      if |s| >= 6 && s[1] == 0x24 && s[3] == 0 && s[5] == 0 then Some((Cursor(s[2], s[4]), 6))
      else if |s| >= 3 && s[1] == 0x77 && s[2] <= 3 then Some((Mode(ModeOf(s[2]).value), 3))
      else if |s| >= 5 && s[1] == 0x28 && s[2] == 0x67 && s[3] == 0x03 then Some((FontWidth(s[4]), 5))
      else if |s| >= 6 && s[1] == 0x28 && s[2] == 0x67 && s[3] == 0x40 then Some((Magnify(s[4], s[5]), 6))
      else if |s| >= 13 && s[1] == 0x28 && s[2] == 0x64 && s[3] == 0x21
              && s[5] == 0 && s[7] == 0 && s[9] == 0 && s[11] == 0 && s[12] == 0x01 then
        Some((BitImage(s[4], s[6], s[8], s[10]), 13))
      else None
    else None
  }

  /**
   Every control sequence is recognised whatever follows it: the encodings
   are pairwise distinct and none is a prefix of another.
   */
  lemma ParseEncode(c: Command, rest: seq<Byte>)
    requires IsControl(c) && WellFormed(c)
    ensures Parse(Encode(c) + rest) == Some((c, |Encode(c)|))
  {
    var s := Encode(c) + rest;
    match c
    case Download(code, b) =>
      assert s[6..11] == b;
    case Mode(m) =>
      assert ModeOf(m.Code()) == Some(m);
    case _ =>
  }

  lemma EncodeAllCons(c: Command, cs: seq<Command>)
    requires WellFormed(c) && forall i :: 0 <= i < |cs| ==> WellFormed(cs[i])
    ensures EncodeAll([c] + cs) == Encode(c) + EncodeAll(cs)
  {
    assert ([c] + cs)[1..] == cs;
  }

  /** Decodes a stream made only of control sequences. */
  function ParseStream(s: seq<Byte>): (r: Option<seq<Command>>)
    ensures r.Some? ==> forall i :: 0 <= i < |r.value| ==> IsControl(r.value[i]) && WellFormed(r.value[i])
    ensures r.Some? ==> EncodeAll(r.value) == s
    decreases |s|
  {
    if |s| == 0 then Some([])
    else match Parse(s)
      case None => None
      case Some((c, n)) =>
        match ParseStream(s[n..])
        case None => None
        case Some(cs) =>
          StreamCons(s, c, n, cs);
          Some([c] + cs)
  }

  /** A decoded head followed by a decoded rest decodes the whole stream. */
  lemma StreamCons(s: seq<Byte>, c: Command, n: nat, cs: seq<Command>)
    requires IsControl(c) && WellFormed(c) && n <= |s| && s[..n] == Encode(c)
    requires forall i :: 0 <= i < |cs| ==> IsControl(cs[i]) && WellFormed(cs[i])
    requires EncodeAll(cs) == s[n..]
    ensures forall i :: 0 <= i < |[c] + cs| ==> IsControl(([c] + cs)[i]) && WellFormed(([c] + cs)[i])
    ensures EncodeAll([c] + cs) == s
  {
    EncodeAllCons(c, cs);
    assert s == s[..n] + s[n..];
  }

  /** Any sequence of control commands is recovered exactly from the bytes it encodes to. */
  lemma {:induction false} ParseStreamEncodeAll(cs: seq<Command>)
    requires forall i :: 0 <= i < |cs| ==> IsControl(cs[i]) && WellFormed(cs[i])
    ensures ParseStream(EncodeAll(cs)) == Some(cs)
  {
    if |cs| > 0 {
      var s := EncodeAll(cs);
      var tail := EncodeAll(cs[1..]);
      ParseEncode(cs[0], tail);
      assert s[|Encode(cs[0])|..] == tail;
      ParseStreamEncodeAll(cs[1..]);
      assert [cs[0]] + cs[1..] == cs;
    }
  }
}

=== FILE: readout.dfy ===
/**
 The frequency readout: the channel frequency split into whole MHz and
 tenths, formatted by `sprintf(buf, "%3d.%1d", whole, part)`.
 */
module Readout {
  import opened Native

  const Point: Byte := 0x2E
  const Zero: Byte := 0x30

  /** `whole`: the channel frequency in whole MHz, stored into a `uint8_t`. */
  function Whole(ch: U16): (w: Byte)
    ensures ch < 25600 ==> 100 * w <= ch < 100 * (w + 1)
  {
    ToByte(ch / 100)
  }

  /** `part`: the tenths of a MHz, stored into a `uint8_t`. */
  function Tenths(ch: U16): (p: Byte)
    ensures p <= 9
  {
    ToByte((ch % 100) / 10)
  }

  /** For a frequency on a 100 kHz step the two parts lose nothing. */
  lemma WholeAndTenthsExact(ch: U16)
    requires ch % 10 == 0 && ch < 25600
    ensures 100 * Whole(ch) + 10 * Tenths(ch) == ch
  {
    var w, r := ch / 100, ch % 100;
    assert ch == 100 * w + r && w < 256;
    assert Whole(ch) == w;
    assert r % 10 == 0 by { assert ch % 10 == r % 10; }
    assert Tenths(ch) == r / 10;
  }

  predicate IsDigit(b: Byte)
  {
    Zero <= b <= Zero + 9
  }

  predicate AllDigits(s: seq<Byte>)
  {
    forall k :: 0 <= k < |s| ==> IsDigit(s[k])
  }

  /** The number a string of decimal digits denotes. */
  function ValueOf(s: seq<Byte>): nat
    requires AllDigits(s)
  {
    if |s| == 0 then 0
    else
      var d := s[|s| - 1];
      assert IsDigit(d);
      10 * ValueOf(s[..|s| - 1]) + (d - Zero)
  }

  /** The decimal digits `%d` prints for a non-negative value. */
  function Decimal(n: nat): (s: seq<Byte>)
    ensures 1 <= |s|
    ensures AllDigits(s)
    ensures ValueOf(s) == n
  {
    if n < 10 then
      [Zero + n]
    else
      var s := Decimal(n / 10) + [Zero + n % 10];
      assert s[..|s| - 1] == Decimal(n / 10);
      s
  }

  /** `%d` of a value below 1000 takes one, two or three characters. */
  lemma DecimalLength(n: nat)
    requires n < 1000
    ensures n < 10 ==> |Decimal(n)| == 1
    ensures 10 <= n < 100 ==> |Decimal(n)| == 2
    ensures 100 <= n ==> |Decimal(n)| == 3
  {
    if n >= 10 {
      DecimalLength(n / 10);
    }
  }

  /** A `%Nd` field: the digits right-aligned in `width` characters. */
  function PadLeft(s: seq<Byte>, width: nat): (r: seq<Byte>)
    ensures |r| == if |s| < width then width else |s|
    ensures r[|r| - |s|..] == s
    ensures forall k :: 0 <= k < |r| - |s| ==> r[k] == Space
  {
    if |s| < width then [Space] + PadLeft(s, width - 1) else s
  }

  /** `sprintf(buf, "%3d.%1d", whole, part)`. */
  function FreqText(whole: Byte, part: Byte): (t: seq<Byte>)
    ensures |t| == 4 + |Decimal(part)| && t[3] == Point
    ensures t[..3] == PadLeft(Decimal(whole), 3) && t[4..] == Decimal(part)
    ensures part <= 9 ==> |t| == 5
  {
    PaddedLength(whole);
    DecimalLength(part);
    SplitAtPoint(PadLeft(Decimal(whole), 3), Decimal(part));
    PadLeft(Decimal(whole), 3) + [Point] + Decimal(part)
  }

  /** Any byte value fills the `%3d` field exactly. */
  lemma PaddedLength(whole: Byte)
    ensures |PadLeft(Decimal(whole), 3)| == 3
  {
    DecimalLength(whole);
  }

  /** Leading spaces dropped, as a reader of the display would. */
  function SkipSpaces(s: seq<Byte>): (r: seq<Byte>)
    ensures |r| <= |s|
    ensures |r| > 0 ==> r[0] != Space
  {
    if |s| > 0 && s[0] == Space then SkipSpaces(s[1..]) else s
  }

  lemma {:induction false} SkipPadding(s: seq<Byte>, width: nat)
    requires |s| > 0 && s[0] != Space
    ensures SkipSpaces(PadLeft(s, width)) == s
    decreases width
  {
    if |s| < width {
      var padded, rest := PadLeft(s, width), PadLeft(s, width - 1);
      assert padded == [Space] + rest;
      assert padded[0] == Space && padded[1..] == rest;
      assert SkipSpaces(padded) == SkipSpaces(rest);
      SkipPadding(s, width - 1);
    } else {
      assert PadLeft(s, width) == s;
    }
  }

  /** A readout with a one-digit tenths part reads back as its two numbers. */
  lemma FreqTextReadsBack(whole: Byte, part: Byte)
    requires part <= 9
    ensures var t := FreqText(whole, part);
      && |t| == 5 && t[3] == Point
      && AllDigits(SkipSpaces(t[..3])) && AllDigits(t[4..])
      && ValueOf(SkipSpaces(t[..3])) == whole
      && ValueOf(t[4..]) == part
  {
    PaddedWhole(whole);
    SplitAtPoint(PadLeft(Decimal(whole), 3), Decimal(part));
  }

  /** The three characters before the point and everything after it. */
  lemma SplitAtPoint(a: seq<Byte>, b: seq<Byte>)
    requires |a| == 3
    ensures var t := a + [Point] + b; |t| == 4 + |b| && t[..3] == a && t[3] == Point && t[4..] == b
  {
  }

  /** Any whole part fills the `%3d` field and reads back without its padding. */
  lemma PaddedWhole(whole: Byte)
    ensures |PadLeft(Decimal(whole), 3)| == 3
    ensures SkipSpaces(PadLeft(Decimal(whole), 3)) == Decimal(whole)
  {
    DecimalLength(whole);
    SkipPadding(Decimal(whole), 3);
  }

  /**
   The readout of any channel in range has the shape "ddd.d", " dd.d" or
   "  d.d", and reading its two numbers back gives the channel frequency
   exactly.
   */
  lemma FreqTextShowsChannel(ch: U16)
    requires ch % 20 == 10 && ch < 25600
    ensures var t := FreqText(Whole(ch), Tenths(ch));
      && |t| == 5 && t[3] == Point
      && AllDigits(SkipSpaces(t[..3])) && AllDigits(t[4..])
      && 100 * ValueOf(SkipSpaces(t[..3])) + 10 * ValueOf(t[4..]) == ch
  {
    var whole, part := Whole(ch), Tenths(ch);
    WholeAndTenthsExact(ch);
    FreqTextReadsBack(whole, part);
  }
}

=== FILE: registry.dfy ===
/**
 The `VFD` object: a fixed arena of `MaxFields` field slots of which the
 first `count` are in use (in creation order), and the serial line, seen as
 the append-only log of every byte written to the display.
 */
module Registry {
  import opened Native
  import opened Protocol
  import opened DisplayField

  /** `VFD_MAX_FIELDS`. */
  const MaxFields: nat := 8

  datatype Vfd = Vfd(slots: seq<Field>, count: nat, out: seq<Byte>)

  /** The arena is full-size, the count within it, and unused slots untouched. */
  predicate Valid(d: Vfd)
  {
    && |d.slots| == MaxFields
    && d.count <= MaxFields
    && forall i :: d.count <= i < MaxFields ==> d.slots[i] == Unconfigured
  }

  /** The constructor `VFD(serial, busy_pin)`: no fields, nothing written. */
  function Make(): (d: Vfd)
    ensures Valid(d) && d.count == 0 && d.out == []
  {
    Vfd(seq(MaxFields, _ => Unconfigured), 0, [])
  }

  /** One device operation: its bytes go on the line, the fields are untouched. */
  function Send(d: Vfd, c: Command): (r: Vfd)
    requires WellFormed(c)
    ensures r.out == d.out + Encode(c)
    ensures r.slots == d.slots && r.count == d.count
  {
    d.(out := d.out + Encode(c))
  }

  /** `draw`: the bit-image header, then the `len` data bytes given. */
  function Draw(d: Vfd, x: Byte, y: Byte, w: Byte, h: Byte, data: seq<Byte>): (r: Vfd)
    ensures r.out == d.out + Encode(BitImage(x, y, w, h)) + data
    ensures r.slots == d.slots && r.count == d.count
  {
    Send(Send(d, BitImage(x, y, w, h)), Payload(data))
  }

  /** `set_custom_char_download_enabled`: the argument plays no part. */
  function SetCustomCharDownloadEnabled(d: Vfd, enabled: bool): (r: Vfd)
    ensures r.out == d.out + [0x1B, 0x25, 0x01]
    ensures Parse(r.out[|d.out|..]) == Some((EnableDownload, 3))
    ensures r.slots == d.slots && r.count == d.count
  {
    ParseEncode(EnableDownload, []);
    Send(d, EnableDownload)
  }

  /**
   `create_text_field`: configures the next free slot through its setters
   and hands out its index; when all slots are taken, NULL and no change.
   */
  method CreateTextField(d: Vfd, x: Byte, y: Byte, width: Byte, xmag: Byte, ymag: Byte) returns (r: Vfd, h: Option<nat>)
    requires Valid(d)
    ensures Valid(r) && r.out == d.out
    ensures d.count == MaxFields ==> h == None && r == d
    ensures d.count < MaxFields ==> h == Some(d.count) && r.count == d.count + 1
    ensures d.count < MaxFields ==> var f := r.slots[d.count];
      && Look(f) == Appearance(x, y, width, xmag, ymag, [])
      && f.enabled
      && (f.stale <==> Look(f) != Look(Unconfigured))
    ensures forall i :: 0 <= i < |d.slots| && i != d.count ==> r.slots[i] == d.slots[i]
  {
    if d.count == MaxFields {
      return d, None;
    }
    var f := d.slots[d.count];
    f := SetPosition(f, x, y);
    f := SetFontWidth(f, width);
    f := SetFontMagnification(f, xmag, ymag);
    r := d.(slots := d.slots[d.count := f], count := d.count + 1);
    h := Some(d.count);
  }

  /** A mutation of the registered field at slot `i`. */
  function EditField(d: Vfd, i: nat, e: Edit): (r: Vfd)
    requires Valid(d) && i < d.count
    ensures Valid(r) && r.count == d.count && r.out == d.out
    ensures r.slots[i] == Apply(d.slots[i], e)
    ensures forall j :: 0 <= j < |d.slots| && j != i ==> r.slots[j] == d.slots[j]
  {
    d.(slots := d.slots[i := Apply(d.slots[i], e)])
  }

  /** `set_value_and_update` on the registered field at slot `i`. */
  function SetValueAndUpdate(d: Vfd, i: nat, v: seq<Byte>): (r: Vfd)
    requires Valid(d) && i < d.count
    ensures Valid(r) && r.count == d.count
    ensures var (f, bytes) := DisplayField.SetValueAndUpdate(d.slots[i], v);
      r.slots[i] == f && r.out == d.out + bytes
    ensures forall j :: 0 <= j < |d.slots| && j != i ==> r.slots[j] == d.slots[j]
  {
    var (f, bytes) := DisplayField.SetValueAndUpdate(d.slots[i], v);
    d.(slots := d.slots[i := f], out := d.out + bytes)
  }

  /** The bytes `update` sends for each field in turn, in the given order. */
  function UpdateOutput(fs: seq<Field>): seq<Byte>
  {
    if |fs| == 0 then [] else Update(fs[0]).1 + UpdateOutput(fs[1..])
  }

  /** Fields that need no re-send contribute nothing to a bulk update. */
  lemma {:induction false} QuietFieldsSendNothing(fs: seq<Field>)
    requires forall i :: 0 <= i < |fs| ==> Settled(fs[i])
    ensures UpdateOutput(fs) == []
  {
    if |fs| > 0 {
      QuietFieldsSendNothing(fs[1..]);
    }
  }

  lemma {:induction false} UpdateOutputAppend(fs: seq<Field>, f: Field)
    ensures UpdateOutput(fs + [f]) == UpdateOutput(fs) + Update(f).1
  {
    if |fs| == 0 {
      assert [f][1..] == [];
      assert UpdateOutput([f]) == Update(f).1 + UpdateOutput([]);
    } else {
      assert (fs + [f])[0] == fs[0];
      assert (fs + [f])[1..] == fs[1..] + [f];
      UpdateOutputAppend(fs[1..], f);
      var a, b, c := Update(fs[0]).1, UpdateOutput(fs[1..]), Update(f).1;
      assert UpdateOutput(fs + [f]) == a + (b + c);
      assert UpdateOutput(fs) == a + b;
      Extend(a, b, c);
    }
  }

  lemma UpdateFieldsStep(start: seq<Byte>, fs: seq<Field>, i: nat, out: seq<Byte>)
    requires i < |fs| && out == start + UpdateOutput(fs[..i])
    ensures out + Update(fs[i]).1 == start + UpdateOutput(fs[..i + 1])
  {
    assert fs[..i + 1] == fs[..i] + [fs[i]];
    UpdateOutputAppend(fs[..i], fs[i]);
    Extend(start, UpdateOutput(fs[..i]), Update(fs[i]).1);
  }

  /** `update_fields`: updates every registered field in creation order. */
  method UpdateFields(d: Vfd) returns (r: Vfd)
    requires Valid(d)
    ensures Valid(r) && r.count == d.count
    ensures r.out == d.out + UpdateOutput(d.slots[..d.count])
    ensures forall i :: 0 <= i < d.count ==> r.slots[i] == Update(d.slots[i]).0
    ensures forall i :: 0 <= i < d.count ==> Settled(r.slots[i])
  {
    r := d;
    var i := 0;
    while i < d.count
      invariant 0 <= i <= d.count
      invariant |r.slots| == MaxFields && r.count == d.count
      invariant r.out == d.out + UpdateOutput(d.slots[..i])
      invariant forall j :: 0 <= j < i ==> r.slots[j] == Update(d.slots[j]).0
      invariant forall j :: i <= j < MaxFields ==> r.slots[j] == d.slots[j]
    {
      var (f, bytes) := Update(r.slots[i]);
      UpdateFieldsStep(d.out, d.slots, i, r.out);
      r := r.(slots := r.slots[i := f], out := r.out + bytes);
      i := i + 1;
    }
  }

  /** `enstale_fields`: marks every registered field stale. */
  method EnstaleFields(d: Vfd) returns (r: Vfd)
    requires Valid(d)
    ensures Valid(r) && r.count == d.count && r.out == d.out
    ensures forall i :: 0 <= i < d.count ==> r.slots[i] == Enstale(d.slots[i])
  {
    r := d;
    var i := 0;
    while i < d.count
      invariant 0 <= i <= d.count
      invariant |r.slots| == MaxFields && r.count == d.count && r.out == d.out
      invariant forall j :: 0 <= j < i ==> r.slots[j] == Enstale(d.slots[j])
      invariant forall j :: i <= j < MaxFields ==> r.slots[j] == d.slots[j]
    {
      r := r.(slots := r.slots[i := Enstale(r.slots[i])]);
      i := i + 1;
    }
  }

  /** `clear`: blanks the screen, after which every registered field must be re-sent. */
  method Clear(d: Vfd) returns (r: Vfd)
    requires Valid(d)
    ensures Valid(r) && r.count == d.count
    ensures r.out == d.out + [0x0C]
    ensures forall i :: 0 <= i < d.count ==>
      r.slots[i].stale && Look(r.slots[i]) == Look(d.slots[i]) && r.slots[i].enabled == d.slots[i].enabled
  {
    r := Send(d, Command.Clear);
    r := EnstaleFields(r);
  }

  /** Appending `more` after `line + sent` is appending `sent + more` after `line`. */
  lemma Extend(line: seq<Byte>, sent: seq<Byte>, more: seq<Byte>)
    ensures line + sent + more == line + (sent + more)
  {
  }

  /** The bytes `begin` writes. */
  const BeginBytes: seq<Byte> :=
    Encode(Init) + Encode(EnableDownload) + Encode(Mode(Normal))
    + Encode(FontWidth(1)) + Encode(Magnify(1, 1)) + Encode(Command.Clear) + Encode(Cursor(0, 0))

  /**
   `begin`: resets the device, enables glyph download, selects normal
   writing at unit size, clears the screen and homes the cursor.
   */
  method Begin(d: Vfd) returns (r: Vfd)
    requires Valid(d)
    ensures Valid(r) && r.count == d.count
    ensures r.out == d.out + BeginBytes
    ensures forall i :: 0 <= i < d.count ==>
      r.slots[i].stale && Look(r.slots[i]) == Look(d.slots[i]) && r.slots[i].enabled == d.slots[i].enabled
  {
    var s := Send(d, Init);
    ghost var sent := Encode(Init);
    s := SetCustomCharDownloadEnabled(s, true);
    Extend(d.out, sent, Encode(EnableDownload));
    sent := sent + Encode(EnableDownload);
    s := Send(s, Mode(Normal));
    Extend(d.out, sent, Encode(Mode(Normal)));
    sent := sent + Encode(Mode(Normal));
    s := Send(s, FontWidth(1));
    Extend(d.out, sent, Encode(FontWidth(1)));
    sent := sent + Encode(FontWidth(1));
    s := Send(s, Magnify(1, 1));
    Extend(d.out, sent, Encode(Magnify(1, 1)));
    sent := sent + Encode(Magnify(1, 1));
    s := Clear(s);
    Extend(d.out, sent, Encode(Command.Clear));
    sent := sent + Encode(Command.Clear);
    r := Send(s, Cursor(0, 0));
    Extend(d.out, sent, Encode(Cursor(0, 0)));
    sent := sent + Encode(Cursor(0, 0));
  }
}

=== FILE: screen.dfy ===
/**
 The receiver's screen: the six text fields the firmware registers at
 static-initialisation time, the texts the loop puts into them, and one
 iteration's redraw: five field refreshes followed by the reticle overlay.
 */
module Screen {
  import opened Native
  import opened Protocol
  import opened DisplayField
  import opened Registry
  import opened Frequency
  import opened Spectrum
  import opened Readout

  /** The arguments of one `create_text_field` call. */
  datatype Placement = Placement(x: Byte, y: Byte, width: Byte, xmag: Byte, ymag: Byte)

  /** How a freshly created field looks: the given geometry, no text yet. */
  function Shape(p: Placement): Appearance
  {
    Appearance(p.x, p.y, p.width, p.xmag, p.ymag, [])
  }

  /** The handle the `k`-th of a run of creations gets when `count` slots were taken before it. */
  function HandleAt(count: nat, k: nat): Option<nat>
  {
    if count + k < MaxFields then Some(count + k) else None
  }

  /** A slot freshly configured for `p`: its geometry, enabled, stale exactly when that differs from the default. */
  predicate Created(f: Field, p: Placement)
  {
    && Look(f) == Shape(p) && f.enabled
    && (f.stale <==> Shape(p) != Look(Unconfigured))
  }

  /**
   A sequence of `create_text_field` calls: each call takes the next free
   slot and hands out its index; once the arena is full, every further
   call hands out NULL.
   */
  method CreateAll(d: Vfd, ps: seq<Placement>) returns (r: Vfd, hs: seq<Option<nat>>)
    requires Valid(d)
    ensures Valid(r) && r.out == d.out && |hs| == |ps|
    ensures r.count == Min(d.count + |ps|, MaxFields)
    ensures forall k :: 0 <= k < |ps| ==> hs[k] == HandleAt(d.count, k)
    ensures forall k :: 0 <= k < |ps| && d.count + k < MaxFields ==> Created(r.slots[d.count + k], ps[k])
    ensures forall j :: 0 <= j < d.count ==> r.slots[j] == d.slots[j]
  {
    r, hs := d, [];
    var k := 0;
    while k < |ps|
      invariant 0 <= k <= |ps| && |hs| == k
      invariant Valid(r) && r.out == d.out && r.count == Min(d.count + k, MaxFields)
      invariant forall i :: 0 <= i < k ==> hs[i] == HandleAt(d.count, i)
      invariant forall i :: 0 <= i < k && d.count + i < MaxFields ==> Created(r.slots[d.count + i], ps[i])
      invariant forall j :: 0 <= j < d.count ==> r.slots[j] == d.slots[j]
    {
      var p := ps[k];
      var next, h := CreateTextField(r, p.x, p.y, p.width, p.xmag, p.ymag);
      r, hs := next, hs + [h];
      k := k + 1;
    }
  }

  /** The slots of the six fields, in creation order. */
  const FmSlot: nat := 0
  const StrengthSlot: nat := 1
  const FreqSlot: nat := 2
  const TuneSlot: nat := 3
  const GraticuleSlot: nat := 4
  const SpectrumSlot: nat := 5
  const PanelFieldCount: nat := 6

  /** The six fields of the panel; the last two ask for position -1, stored as 255. */
  const Layout: seq<Placement> := [
    Placement(0, 0, 0, 2, 1),                       // fm_field
    Placement(0, 1, 0, 1, 1),                       // strength_field
    Placement(45, 0, 0, 2, 1),                      // freq_field
    Placement(110, 0, 2, 1, 1),                     // tune_field
    Placement(ToByte(-1), ToByte(-1), 1, 1, 1),     // graticule_field
    Placement(ToByte(-1), ToByte(-1), 0, 1, 1)      // spectrum_field
  ]

  /**
   The static initialisers hand out slots 0 to 5, so none of the six
   references is bound to NULL, and every field starts stale.
   */
  method PanelFields(d0: Vfd) returns (d: Vfd, hs: seq<Option<nat>>)
    requires Valid(d0) && d0.count == 0
    ensures Valid(d) && d.count == PanelFieldCount && d.out == d0.out && |hs| == PanelFieldCount
    ensures forall k :: 0 <= k < PanelFieldCount ==> hs[k] == Some(k)
    ensures forall k :: 0 <= k < PanelFieldCount ==>
      Look(d.slots[k]) == Shape(Layout[k]) && d.slots[k].enabled && d.slots[k].stale
    ensures d.slots[GraticuleSlot].x == 255 && d.slots[SpectrumSlot].y == 255
  {
    d, hs := CreateAll(d0, Layout);
    assert |Layout| == PanelFieldCount;
    forall k | 0 <= k < PanelFieldCount
      ensures Look(d.slots[k]) == Shape(Layout[k]) && d.slots[k].enabled && d.slots[k].stale
    {
      assert Created(d.slots[k], Layout[k]);
      assert Shape(Layout[k]).xmag != Look(Unconfigured).xmag;
    }
    assert Layout[GraticuleSlot].x == 255 && Layout[SpectrumSlot].y == 255;
  }


  /** "FM". */
  const FmText: seq<Byte> := [0x46, 0x4D]

  /** `bars[]`: a four-character meter built from the glyphs 0xF0 to 0xF3. */
  const BarTable: seq<seq<Byte>> := [
    [Space, Space, Space, Space],
    [0xF0, Space, Space, Space],
    [0xF0, 0xF1, Space, Space],
    [0xF0, 0xF1, 0xF2, Space],
    [0xF0, 0xF1, 0xF2, 0xF3]
  ]

  /**
   `bars[constrain(num_bars, 0, 4)]`: the first `bars` positions (at most
   four) carry the rising glyphs 0xF0, 0xF1, ..., the rest are blank.
   */
  function BarText(bars: Byte): (t: seq<Byte>)
    ensures |t| == 4
    ensures forall k :: 0 <= k < 4 ==> t[k] == if k < Min(bars, 4) then 0xF0 + k else Space
  {
    BarTable[Min(bars, 4)]
  }

  /** One megahertz of graticule: nine minor marks, then the major mark '|'. */
  const Division: seq<Byte> := [0xF7, 0xF6, 0xF7, 0xF6, 0xF7, 0xF6, 0xF7, 0xF6, 0xF7, 0x7C]

  /** `n` copies of `s` end to end. */
  function Repeat(s: seq<Byte>, n: nat): (r: seq<Byte>)
    ensures |r| == n * |s|
  {
    if n == 0 then [] else s + Repeat(s, n - 1)
  }

  lemma {:induction false} RepeatIndex(s: seq<Byte>, n: nat, k: nat, t: nat)
    requires k < n && t < |s|
    ensures k * |s| + t < |Repeat(s, n)|
    ensures Repeat(s, n)[k * |s| + t] == s[t]
    decreases n
  {
    if k > 0 {
      assert k * |s| == |s| + (k - 1) * |s|;
      RepeatIndex(s, n - 1, k - 1, t);
    }
  }

  /**
   `graticule`: minor dots and ticks with a major mark '|' every ten
   characters, one character per 100 kHz. It starts one character into a
   division, then runs for five whole divisions: 59 characters.
   */
  const Graticule: seq<Byte> := Division[1..] + Repeat(Division, 5)

  lemma SplitTen(i: nat) returns (q: nat, t: nat)
    ensures i == q * 10 + t && t < 10 && (i + 10) % 10 == t
  {
    q, t := i / 10, i % 10;
  }

  /** Character `j` of the graticule is the mark for position `j + 1` within a division. */
  lemma GraticulePattern(j: nat)
    requires j < |Graticule|
    ensures |Graticule| == 59
    ensures Graticule[j] == Division[(j + 1) % 10]
  {
    DivisionsPattern(5, j);
  }

  /** The same for any number of whole divisions after the first, partial one. */
  lemma DivisionsPattern(n: nat, j: nat)
    requires j < 9 + 10 * n
    ensures |Division[1..] + Repeat(Division, n)| == 9 + 10 * n
    ensures (Division[1..] + Repeat(Division, n))[j] == Division[(j + 1) % 10]
  {
    var tail := Repeat(Division, n);
    if j >= 9 {
      var q, t := SplitTen(j - 9);
      RepeatIndex(Division, n, q, t);
      assert (Division[1..] + tail)[j] == tail[q * 10 + t];
      assert (j + 1) % 10 == t;
    } else {
      assert (j + 1) % 10 == j + 1;
    }
  }

  /** `graticule_pixel_offset`: seven pixels per 100 kHz character, from 5. */
  function GraticulePixelOffset(rf: U16): (p: Byte)
    ensures 5 <= p <= 11
  {
    ToByte(5 + (7 * (ToU16(rf - TuneMin) % 10)) / 10)
  }

  /** `graticule_char_offset`: the cell offset within the current megahertz. */
  function GraticuleCharOffset(rf: U16): (g: Byte)
    ensures g <= 9
    ensures g == CharOffset(rf) % 10
  {
    var x := ToU16(rf - TuneMin);
    TensDigit(x);
    ToByte((x % 100) / 10)
  }

  /** The tens digit of `x` is the last digit of `x / 10`. */
  lemma TensDigit(x: nat)
    ensures x % 100 / 10 == x / 10 % 10
  {
    var q, r := x / 100, x % 100;
    assert x == 100 * q + r;
    assert x / 10 == 10 * q + r / 10;
  }

  /**
   The graticule field's text: thirteen characters of the graticule from
   the character offset, between two spaces. The offset is at most 9, so
   the substring never runs past the end of the 59-character string.
   */
  function GraticuleText(rf: U16): (t: seq<Byte>)
    ensures |t| == 15 && t[0] == Space && t[14] == Space
  {
    var g := GraticuleCharOffset(rf);
    [Space] + Graticule[g..g + 13] + [Space]
  }

  lemma ShiftMod10(g: nat, c: nat, k: nat)
    requires g == c % 10
    ensures (g + k + 1) % 10 == (c + k + 1) % 10
  {
    var q := c / 10;
    assert c == 10 * q + g;
    assert c + k + 1 == 10 * q + (g + k + 1);
  }

  /**
   The graticule scrolls with the spectrum: its character at position
   `k + 1` is the mark for cell `CharOffset(rf) + k + 1`, the cell the
   spectrum window shows at that position.
   */
  lemma GraticuleScrolls(rf: U16, k: nat)
    requires k < 13
    ensures GraticuleText(rf)[k + 1] == Division[(CharOffset(rf) + k + 1) % 10]
  {
    var g, c, t := GraticuleCharOffset(rf), CharOffset(rf), GraticuleText(rf);
    ScrollIndex(g, c, k);
    assert t == [Space] + Graticule[g..g + 13] + [Space];
  }

  lemma ScrollIndex(g: Byte, c: nat, k: nat)
    requires g == c % 10 && k < 13
    ensures ([Space] + Graticule[g..g + 13] + [Space])[k + 1] == Division[(c + k + 1) % 10]
  {
    GraticulePattern(g + k);
    BracketAt(Graticule, g, k);
    ShiftMod10(g, c, k);
  }

  /** Position `k + 1` of a 13-character slice between two spaces. */
  lemma BracketAt(s: seq<Byte>, g: nat, k: nat)
    requires g + 13 <= |s| && k < 13
    ensures ([Space] + s[g..g + 13] + [Space])[k + 1] == s[g + k]
  {
  }

  /** What `set_value_and_update` writes for field `f` once its appearance has become `after`. */
  function Resend(f: Field, after: Appearance): seq<Byte>
  {
    if f.enabled && (f.stale || after != Look(f)) then Render(after) else []
  }

  /** `field.set_value_and_update(v)` on the field in slot `i`. */
  function Refresh(d: Vfd, i: nat, v: seq<Byte>): (r: Vfd)
    requires Valid(d) && i < d.count
    ensures Valid(r) && r.count == d.count
    ensures Look(r.slots[i]) == Look(d.slots[i]).(value := v)
    ensures r.slots[i].enabled == d.slots[i].enabled && Settled(r.slots[i])
    ensures r.out == d.out + Resend(d.slots[i], Look(r.slots[i]))
    ensures Settled(d.slots[i]) && d.slots[i].value == v ==> r == d
    ensures forall j :: 0 <= j < |d.slots| && j != i ==> r.slots[j] == d.slots[j]
  {
    Registry.SetValueAndUpdate(d, i, v)
  }

  /** `field.set_position(x, y)` then `field.set_value_and_update(v)` on slot `i`. */
  function Place(d: Vfd, i: nat, x: Byte, y: Byte, v: seq<Byte>): (r: Vfd)
    requires Valid(d) && i < d.count
    ensures Valid(r) && r.count == d.count
    ensures Look(r.slots[i]) == Look(d.slots[i]).(x := x, y := y, value := v)
    ensures r.slots[i].enabled == d.slots[i].enabled && Settled(r.slots[i])
    ensures r.out == d.out + Resend(d.slots[i], Look(r.slots[i]))
    ensures Settled(d.slots[i]) && Look(r.slots[i]) == Look(d.slots[i]) ==> r == d
    ensures forall j :: 0 <= j < |d.slots| && j != i ==> r.slots[j] == d.slots[j]
  {
    Registry.SetValueAndUpdate(EditField(d, i, NewPosition(x, y)), i, v)
  }

  /** `reticle[]`: the five columns of the centre marker. */
  const Reticle: seq<Byte> := [0x00, 0x82, 0xC6, 0x82, 0x00]

  /** The centre marker, OR-ed onto the screen at (83, 9) and then back to normal writing. */
  const OverlayBytes: seq<Byte> :=
    Encode(Mode(Or)) + Encode(BitImage(83, 9, 5, 7)) + Reticle + Encode(Mode(Normal))

  function Overlay(d: Vfd): (r: Vfd)
    ensures r.out == d.out + OverlayBytes
    ensures r.slots == d.slots && r.count == d.count
  {
    Send(Draw(Send(d, Mode(Or)), 83, 9, 5, 7, Reticle), Mode(Normal))
  }

  /** The overlay is 24 bytes: mode OR, the bit-image header, the marker, mode NORMAL. */
  lemma OverlayDecodes()
    ensures |OverlayBytes| == 24
    ensures Parse(OverlayBytes) == Some((Mode(Or), 3))
    ensures Parse(OverlayBytes[3..]) == Some((BitImage(83, 9, 5, 7), 13))
    ensures OverlayBytes[16..21] == Reticle
    ensures ParseStream(OverlayBytes[21..]) == Some([Mode(Normal)])
  {
    var m := Encode(Mode(Or));
    var b := Encode(BitImage(83, 9, 5, 7));
    var n := Encode(Mode(Normal));
    ParseEncode(Mode(Or), b + Reticle + n);
    assert OverlayBytes == m + (b + Reticle + n);
    assert OverlayBytes[3..] == b + (Reticle + n);
    ParseEncode(BitImage(83, 9, 5, 7), Reticle + n);
    assert OverlayBytes[21..] == n;
    ParseStreamEncodeAll([Mode(Normal)]);
  }

  /** Where the graticule field goes: `40 - graticule_pixel_offset` stored as a byte. */
  function GraticuleX(rf: U16): (x: Byte)
    ensures 29 <= x <= 35
  {
    ToByte(40 - GraticulePixelOffset(rf))
  }

  /** Where the spectrum field goes: `40 - spectrum_pixel_offset`. */
  function SpectrumX(rf: U16): (x: Byte)
    ensures 35 <= x <= 40
  {
    ToByte(40 - PixelOffset(rf))
  }

  /** The frequency field's text for a channel. */
  function ChannelText(ch: U16): (t: seq<Byte>)
    ensures |t| == 5 && t[3] == Point
  {
    FreqText(Whole(ch), Tenths(ch))
  }

  /** The fields one loop iteration redraws and what each of them shows afterwards. */
  predicate Drawn(r: Vfd, d: Vfd, rf: U16, ch: U16, bars: Byte, cells: seq<Byte>)
    requires |d.slots| == |r.slots| == MaxFields
    requires CharOffset(rf) + WindowLength <= |cells|
  {
    && Look(r.slots[FmSlot]) == Look(d.slots[FmSlot]).(value := FmText)
    && Look(r.slots[StrengthSlot]) == Look(d.slots[StrengthSlot]).(value := BarText(bars))
    && Look(r.slots[GraticuleSlot]) == Look(d.slots[GraticuleSlot]).(x := GraticuleX(rf), y := 1, value := GraticuleText(rf))
    && Look(r.slots[SpectrumSlot]) == Look(d.slots[SpectrumSlot]).(x := SpectrumX(rf), y := 1, value := Window(cells, CharOffset(rf)))
    && Look(r.slots[FreqSlot]) == Look(d.slots[FreqSlot]).(value := ChannelText(ch))
    && Settled(r.slots[FmSlot]) && Settled(r.slots[StrengthSlot]) && Settled(r.slots[GraticuleSlot])
    && Settled(r.slots[SpectrumSlot]) && Settled(r.slots[FreqSlot])
    && r.slots[FmSlot].enabled == d.slots[FmSlot].enabled
    && r.slots[StrengthSlot].enabled == d.slots[StrengthSlot].enabled
    && r.slots[GraticuleSlot].enabled == d.slots[GraticuleSlot].enabled
    && r.slots[SpectrumSlot].enabled == d.slots[SpectrumSlot].enabled
    && r.slots[FreqSlot].enabled == d.slots[FreqSlot].enabled
  }

  /** A slot the loop redraws. */
  predicate Redrawn(i: nat)
  {
    i == FmSlot || i == StrengthSlot || i == GraticuleSlot || i == SpectrumSlot || i == FreqSlot
  }

  /**
   The bytes of the FM label and strength meter refreshes: each field's
   re-send, if it needs one, in that order.
   */
  function LabelBytes(d: Vfd, bars: Byte): seq<Byte>
    requires |d.slots| == MaxFields
  {
    var fm, strength := d.slots[FmSlot], d.slots[StrengthSlot];
    Resend(fm, Look(fm).(value := FmText)) + Resend(strength, Look(strength).(value := BarText(bars)))
  }

  /** The bytes of the graticule and spectrum refreshes, each at its scroll position. */
  function ScaleBytes(d: Vfd, rf: U16, cells: seq<Byte>): seq<Byte>
    requires |d.slots| == MaxFields
    requires CharOffset(rf) + WindowLength <= |cells|
  {
    var g, s := d.slots[GraticuleSlot], d.slots[SpectrumSlot];
    Resend(g, Look(g).(x := GraticuleX(rf), y := 1, value := GraticuleText(rf)))
    + Resend(s, Look(s).(x := SpectrumX(rf), y := 1, value := Window(cells, CharOffset(rf))))
  }

  /** The bytes of the readout refresh. */
  function ReadoutBytes(d: Vfd, ch: U16): seq<Byte>
    requires |d.slots| == MaxFields
  {
    var f := d.slots[FreqSlot];
    Resend(f, Look(f).(value := ChannelText(ch)))
  }

  /**
   Everything one redraw sends, in the loop's order: the FM label, the
   strength meter, the graticule, the spectrum window, the readout (each
   only if it needs re-sending), then the centre marker.
   */
  function RedrawBytes(d: Vfd, rf: U16, ch: U16, bars: Byte, cells: seq<Byte>): seq<Byte>
    requires |d.slots| == MaxFields
    requires CharOffset(rf) + WindowLength <= |cells|
  {
    LabelBytes(d, bars) + ScaleBytes(d, rf, cells) + ReadoutBytes(d, ch) + OverlayBytes
  }

  /** The FM label and the strength meter. */
  method ShowLabels(d: Vfd, bars: Byte) returns (r: Vfd)
    requires Valid(d) && PanelFieldCount <= d.count
    ensures Valid(r) && r.count == d.count && r.out == d.out + LabelBytes(d, bars)
    ensures Look(r.slots[FmSlot]) == Look(d.slots[FmSlot]).(value := FmText)
    ensures Look(r.slots[StrengthSlot]) == Look(d.slots[StrengthSlot]).(value := BarText(bars))
    ensures Settled(r.slots[FmSlot]) && Settled(r.slots[StrengthSlot])
    ensures r.slots[FmSlot].enabled == d.slots[FmSlot].enabled
    ensures r.slots[StrengthSlot].enabled == d.slots[StrengthSlot].enabled
    ensures forall j :: 0 <= j < MaxFields && j != FmSlot && j != StrengthSlot ==> r.slots[j] == d.slots[j]
    ensures (&& Settled(d.slots[FmSlot]) && d.slots[FmSlot].value == FmText
             && Settled(d.slots[StrengthSlot]) && d.slots[StrengthSlot].value == BarText(bars)) ==> r == d
  {
    var d1 := Refresh(d, FmSlot, FmText);
    r := Refresh(d1, StrengthSlot, BarText(bars));
    Extend(d.out, Resend(d.slots[FmSlot], Look(d1.slots[FmSlot])), Resend(d1.slots[StrengthSlot], Look(r.slots[StrengthSlot])));
  }

  /** The graticule and the spectrum window, each moved to its scroll position. */
  method ShowScales(d: Vfd, rf: U16, cells: seq<Byte>) returns (r: Vfd)
    requires Valid(d) && PanelFieldCount <= d.count
    requires CharOffset(rf) + WindowLength <= |cells|
    ensures Valid(r) && r.count == d.count && r.out == d.out + ScaleBytes(d, rf, cells)
    ensures Look(r.slots[GraticuleSlot]) == Look(d.slots[GraticuleSlot]).(x := GraticuleX(rf), y := 1, value := GraticuleText(rf))
    ensures Look(r.slots[SpectrumSlot]) == Look(d.slots[SpectrumSlot]).(x := SpectrumX(rf), y := 1, value := Window(cells, CharOffset(rf)))
    ensures Settled(r.slots[GraticuleSlot]) && Settled(r.slots[SpectrumSlot])
    ensures r.slots[GraticuleSlot].enabled == d.slots[GraticuleSlot].enabled
    ensures r.slots[SpectrumSlot].enabled == d.slots[SpectrumSlot].enabled
    ensures forall j :: 0 <= j < MaxFields && j != GraticuleSlot && j != SpectrumSlot ==> r.slots[j] == d.slots[j]
    ensures (&& Settled(d.slots[GraticuleSlot]) && Look(r.slots[GraticuleSlot]) == Look(d.slots[GraticuleSlot])
             && Settled(d.slots[SpectrumSlot]) && Look(r.slots[SpectrumSlot]) == Look(d.slots[SpectrumSlot])) ==> r == d
  {
    var d3 := Place(d, GraticuleSlot, GraticuleX(rf), 1, GraticuleText(rf));
    r := Place(d3, SpectrumSlot, SpectrumX(rf), 1, Window(cells, CharOffset(rf)));
    Extend(d.out, Resend(d.slots[GraticuleSlot], Look(d3.slots[GraticuleSlot])), Resend(d3.slots[SpectrumSlot], Look(r.slots[SpectrumSlot])));
  }

  /** The channel readout, then the centre marker. */
  method ShowReadout(d: Vfd, ch: U16) returns (r: Vfd)
    requires Valid(d) && PanelFieldCount <= d.count
    ensures Valid(r) && r.count == d.count && r.out == d.out + ReadoutBytes(d, ch) + OverlayBytes
    ensures EndsWithMarker(r.out)
    ensures Look(r.slots[FreqSlot]) == Look(d.slots[FreqSlot]).(value := ChannelText(ch))
    ensures Settled(r.slots[FreqSlot]) && r.slots[FreqSlot].enabled == d.slots[FreqSlot].enabled
    ensures forall j :: 0 <= j < MaxFields && j != FreqSlot ==> r.slots[j] == d.slots[j]
    ensures Settled(d.slots[FreqSlot]) && d.slots[FreqSlot].value == ChannelText(ch) ==>
      r.slots == d.slots && r.out == d.out + OverlayBytes
  {
    var e := Refresh(d, FreqSlot, ChannelText(ch));
    r := Overlay(e);
    Appended(d.out, e.out);
  }

  /** The last thing on the line is the centre marker. */
  predicate EndsWithMarker(line: seq<Byte>)
  {
    |OverlayBytes| <= |line| && line[|line| - |OverlayBytes|..] == OverlayBytes
  }

  /** Appending the marker to a line that extends `start` keeps `start` as a prefix and ends the line with the marker. */
  lemma Appended(start: seq<Byte>, line: seq<Byte>)
    requires start <= line
    ensures start <= line + OverlayBytes
    ensures EndsWithMarker(line + OverlayBytes)
  {
  }

  /**
   The display half of one `loop()` iteration: the FM label, the strength
   bars, the graticule and the spectrum window at their scroll positions,
   the channel readout, then the centre marker. The tuning field and the
   unused slots are left alone; enabled flags never change. The line only
   grows, and ends with the centre marker; when the screen already shows
   all of it (as it does after a redraw of the same inputs, see
   `DrawnSettles`), dirty tracking sends nothing but the marker.
   */
  method Show(d: Vfd, rf: U16, ch: U16, bars: Byte, cells: seq<Byte>) returns (r: Vfd)
    requires Valid(d) && PanelFieldCount <= d.count
    requires CharOffset(rf) + WindowLength <= |cells|
    ensures Valid(r) && r.count == d.count
    ensures Drawn(r, d, rf, ch, bars, cells)
    ensures forall i :: 0 <= i < MaxFields && !Redrawn(i) ==> r.slots[i] == d.slots[i]
    ensures r.out == d.out + RedrawBytes(d, rf, ch, bars, cells)
    ensures d.out <= r.out && EndsWithMarker(r.out)
    ensures Drawn(d, d, rf, ch, bars, cells) ==> r.slots == d.slots && r.out == d.out + OverlayBytes
  {
    var d2 := ShowLabels(d, bars);
    var d4 := ShowScales(d2, rf, cells);
    r := ShowReadout(d4, ch);
    RedrawOrder(d, d2, d4, r, rf, ch, bars, cells);
    assert r.slots[FmSlot] == d4.slots[FmSlot] == d2.slots[FmSlot];
    assert r.slots[StrengthSlot] == d4.slots[StrengthSlot] == d2.slots[StrengthSlot];
    assert r.slots[GraticuleSlot] == d4.slots[GraticuleSlot];
    assert r.slots[SpectrumSlot] == d4.slots[SpectrumSlot];
    assert d4.slots[FreqSlot] == d2.slots[FreqSlot] == d.slots[FreqSlot];
    assert d.out <= d4.out;
    if Drawn(d, d, rf, ch, bars, cells) {
      assert d2 == d;
      assert d4 == d2;
    }
  }

  /** The three refresh groups, run one after another, send the redraw's bytes. */
  lemma RedrawOrder(d: Vfd, d2: Vfd, d4: Vfd, r: Vfd, rf: U16, ch: U16, bars: Byte, cells: seq<Byte>)
    requires |d.slots| == |d2.slots| == |d4.slots| == MaxFields
    requires CharOffset(rf) + WindowLength <= |cells|
    requires d2.slots[GraticuleSlot] == d.slots[GraticuleSlot] && d2.slots[SpectrumSlot] == d.slots[SpectrumSlot]
    requires d4.slots[FreqSlot] == d.slots[FreqSlot]
    requires d2.out == d.out + LabelBytes(d, bars)
    requires d4.out == d2.out + ScaleBytes(d2, rf, cells)
    requires r.out == d4.out + ReadoutBytes(d4, ch) + OverlayBytes
    ensures r.out == d.out + RedrawBytes(d, rf, ch, bars, cells)
  {
    var a, b, c := LabelBytes(d, bars), ScaleBytes(d, rf, cells), ReadoutBytes(d, ch);
    assert ScaleBytes(d2, rf, cells) == b && ReadoutBytes(d4, ch) == c;
    Extend(d.out, a, b);
    Extend(d.out, a + b, c);
    Extend(d.out, a + b + c, OverlayBytes);
  }

  /**
   A drawn screen already shows what it was drawn with: redrawing it with
   the same inputs finds every redrawn field current.
   */
  lemma DrawnSettles(r: Vfd, d: Vfd, rf: U16, ch: U16, bars: Byte, cells: seq<Byte>)
    requires |d.slots| == |r.slots| == MaxFields
    requires CharOffset(rf) + WindowLength <= |cells|
    requires Drawn(r, d, rf, ch, bars, cells)
    ensures Drawn(r, r, rf, ch, bars, cells)
  {
  }
}

=== FILE: spectrum.dfy ===
/**
 The spectrum history: 255 character cells, one per 100 kHz above the
 bottom of the band, holding the strength glyph last seen at that
 frequency. The loop reads a 16-character window of it at the current
 tuning offset and, when the tuning sits on a channel centre, writes the
 left/right half glyphs of one display character into a cell pair.
 */
module Spectrum {
  import opened Native
  import opened Frequency

  /** `char spectrum[255]`. */
  const Size: nat := 255

  /** The glyph of a cell never written: '_'. */
  const Empty: Byte := 0x5F

  /** The characters `strncpy` copies: `sizeof(subspectrum) - 1`. */
  const WindowLength: nat := 16

  /** How close (in 10 kHz) the RF frequency must be to its channel centre for a write. */
  const LockTolerance: nat := 5

  /** The spectrum cells contain no NUL, so the window shows all of its cells. */
  predicate NulFree(cells: seq<Byte>)
  {
    forall k :: 0 <= k < |cells| ==> cells[k] != 0
  }

  /** The buffer after `setup` fills it with '_'. */
  function Blank(): (cells: seq<Byte>)
    ensures |cells| == Size
    ensures forall k :: 0 <= k < Size ==> cells[k] == Empty
  {
    seq(Size, _ => Empty)
  }

  /**
   `spectrum_char_offset`, `(1 * rf - min) / 10` in 16-bit unsigned
   arithmetic: the 100 kHz cells between the band bottom and `rf`. Inside
   the band it is the channel index.
   */
  function CharOffset(rf: U16): (o: U16)
    ensures TuneMin <= rf ==> o == (rf - TuneMin) / 10
    ensures TuneMin <= rf < TuneMax ==> o == ChannelIndex(rf)
  {
    var o := ToU16(1 * rf - TuneMin) / 10;
    assert TuneMin <= rf < TuneMax ==> TuneMin + 10 * o <= rf < TuneMin + 10 * (o + 1);
    o
  }

  /** `spectrum_pixel_offset`: the sub-cell scroll, 6 pixels per 100 kHz cell. */
  function PixelOffset(rf: U16): (p: Byte)
    ensures p <= 5
    ensures TuneMin <= rf && (rf - TuneMin) % 10 == 0 ==> p == 0
  {
    ToByte((6 * (ToU16(rf - TuneMin) % 10)) / 10)
  }

  /**
   The write guard `abs((int16_t)rf - (int16_t)channel) < 5`. For
   frequencies below 0x8000 the casts change nothing, and the guard says
   the two lie within 40 kHz of each other.
   */
  predicate Locked(rf: U16, ch: U16)
    ensures rf < 0x8000 && ch < 0x8000 ==> (Locked(rf, ch) <==> Abs(rf - ch) < LockTolerance)
  {
    Abs(ToInt16(rf) - ToInt16(ch)) < LockTolerance
  }

  /** First cell of the pair written for offset `o`: `2 * (o / 2) + 8`. */
  function PairIndex(o: nat): (i: nat)
    ensures i % 2 == 0
    ensures o + 7 <= i <= o + 8
  {
    2 * (o / 2) + 8
  }

  /**
   The left-half glyph for a bar count: '_' for none, else 0xF8 + bars - 1
   stored into a char (so 5 bars give 0xFC, a right-half glyph, and the
   wrapped counts from 244 on land below 0xF8).
   */
  function LeftGlyph(bars: Byte): (g: Byte)
    ensures bars == 0 ==> g == Empty
    ensures 1 <= bars <= 5 ==> g == 0xF7 + bars
    ensures bars != 0 ==> g == (0xF7 + bars) % 0x100
  {
    if bars == 0 then Empty else ToByte(0xF8 + bars - 1)
  }

  /**
   The right-half glyph: '_' for none, else 0xFC + bars - 1 stored into a
   char (so 5 bars give 0x100, which wraps to the NUL character).
   */
  function RightGlyph(bars: Byte): (g: Byte)
    ensures bars == 0 ==> g == Empty
    ensures 1 <= bars <= 4 ==> g == 0xFB + bars
    ensures bars == 5 ==> g == 0
    ensures bars != 0 ==> g == (0xFB + bars) % 0x100
  {
    if bars == 0 then Empty else ToByte(0xFC + bars - 1)
  }

  /**
   The glyph arithmetic wraps to NUL for exactly one bar count on each
   side: 9 on the left (0xF8 + 8) and 5 on the right (0xFC + 4).
   */
  lemma GlyphsNonNul(bars: Byte)
    ensures LeftGlyph(bars) == 0 <==> bars == 9
    ensures RightGlyph(bars) == 0 <==> bars == 5
  {
  }

  /**
   What the guarded pair write of the loop does to the cells: when locked
   on a channel, the two cells of the pair for the current offset receive
   the glyphs for `bars`; nothing else changes, and nothing at all when
   not locked.
   */
  predicate Recorded(before: seq<Byte>, after: seq<Byte>, rf: U16, ch: U16, bars: Byte)
  {
    var i := PairIndex(CharOffset(rf));
    && |after| == |before|
    && (forall k :: 0 <= k < |before| && k != i && k != i + 1 ==> after[k] == before[k])
    && (Locked(rf, ch) ==> i + 1 < |after| && after[i] == LeftGlyph(bars) && after[i + 1] == RightGlyph(bars))
    && (!Locked(rf, ch) ==> after == before)
  }

  /** The pair write `spectrum[i] = ...; spectrum[i + 1] = ...` under the lock guard. */
  function Record(cells: seq<Byte>, rf: U16, ch: U16, bars: Byte): (r: seq<Byte>)
    requires Locked(rf, ch) ==> PairIndex(CharOffset(rf)) + 1 < |cells|
    ensures Recorded(cells, r, rf, ch, bars)
  {
    if Locked(rf, ch) then
      var i := PairIndex(CharOffset(rf));
      cells[i := LeftGlyph(bars)][i + 1 := RightGlyph(bars)]
    else
      cells
  }

  /**
   `strncpy(dst, src, n)`: copies up to `n` characters, stopping at a NUL,
   and fills the rest of the `n` with NULs.
   */
  function Strncpy(src: seq<Byte>, n: nat): (r: seq<Byte>)
    requires n <= |src|
    ensures |r| == n
    ensures forall k :: 0 <= k < n ==> r[k] == src[k] || r[k] == 0
    decreases n
  {
    if n == 0 then []
    else if src[0] == 0 then seq(n, _ => 0)
    else
      assert src[..n][1..] == src[1..][..n - 1];
      [src[0]] + Strncpy(src[1..], n - 1)
  }

  /** Up to its first NUL, `strncpy` copies the source and then writes only NULs. */
  lemma {:induction false} StrncpyStopsAtNul(src: seq<Byte>, n: nat, m: nat)
    requires m <= n <= |src|
    requires forall k :: 0 <= k < m ==> src[k] != 0
    requires m < n ==> src[m] == 0
    ensures Strncpy(src, n) == src[..m] + seq(n - m, _ => 0)
    decreases n
  {
    if m == 0 {
      assert src[..0] == [];
    } else {
      StrncpyStopsAtNul(src[1..], n - 1, m - 1);
      assert src[..m] == [src[0]] + src[1..][..m - 1];
    }
  }

  /** A source prefix without NUL is copied verbatim. */
  lemma {:induction false} StrncpyKeepsPrefix(src: seq<Byte>, n: nat, m: nat)
    requires m <= n <= |src|
    requires forall k :: 0 <= k < m ==> src[k] != 0
    ensures Strncpy(src, n)[..m] == src[..m]
    decreases n
  {
    if m > 0 {
      var rest := src[1..];
      StrncpyKeepsPrefix(rest, n - 1, m - 1);
      var t := Strncpy(rest, n - 1);
      assert Strncpy(src, n) == [src[0]] + t;
      ConsPrefix(src[0], t, m);
      ConsPrefix(src[0], rest, m);
      assert src == [src[0]] + rest;
      assert t[..m - 1] == rest[..m - 1];
    } else {
      assert Strncpy(src, n)[..0] == [] == src[..0];
    }
  }

  lemma ConsPrefix(x: Byte, t: seq<Byte>, m: nat)
    requires 0 < m <= |t| + 1
    ensures ([x] + t)[..m] == [x] + t[..m - 1]
  {
  }

  /**
   `subspectrum` after the loop's three assignments: the `strncpy` result
   with its first and last characters replaced by spaces, then a NUL.
   */
  function Subspectrum(cells: seq<Byte>, o: nat): (b: seq<Byte>)
    requires o + WindowLength <= |cells|
    ensures |b| == WindowLength + 1
    ensures b[0] == Space && b[WindowLength - 1] == Space && b[WindowLength] == 0
    ensures forall k :: 1 <= k < WindowLength - 1 ==> b[k] == cells[o + k] || b[k] == 0
  {
    var src := cells[o..o + WindowLength];
    var copy := Strncpy(src, WindowLength);
    assert forall k :: 0 <= k < WindowLength ==> src[k] == cells[o + k];
    var b := [Space] + copy[1..WindowLength - 1] + [Space] + [0];
    assert forall k :: 1 <= k < WindowLength - 1 ==> b[k] == copy[k];
    b
  }

  lemma SubspectrumShape(cells: seq<Byte>, o: nat)
    requires o + WindowLength <= |cells|
    ensures var r := CString(Subspectrum(cells, o));
      1 <= |r| <= WindowLength && r[0] == Space
  {
    var b := Subspectrum(cells, o);
    assert |b| == WindowLength + 1 && b[0] == Space && b[WindowLength] == 0;
  }

  /**
   Cell `o` is never shown, since the first byte is overwritten by a space,
   but it still cuts the copy: a NUL there makes `strncpy` fill all sixteen
   bytes with NULs, and the string sent is a single space.
   */
  lemma HiddenNulBlanks(cells: seq<Byte>, o: nat)
    requires o + WindowLength <= |cells| && cells[o] == 0
    ensures CString(Subspectrum(cells, o)) == [Space]
  {
    var src := cells[o..o + WindowLength];
    StrncpyStopsAtNul(src, WindowLength, 0);
    var b := Subspectrum(cells, o);
    assert b[1] == 0;
    assert b == [Space] + [0] + b[2..];
    CStringOfTerminated([Space], b[2..]);
  }

  /**
   Without NULs in cells `o` to `o + 14` (cell `o` is not shown but still
   cuts the copy) the window is a space, cells `o + 1` to `o + 14`, and a
   space.
   */
  lemma SubspectrumOfNulFree(cells: seq<Byte>, o: nat)
    requires o + WindowLength <= |cells|
    requires forall k :: o <= k < o + WindowLength - 1 ==> cells[k] != 0
    ensures CString(Subspectrum(cells, o)) == [Space] + cells[o + 1..o + WindowLength - 1] + [Space]
  {
    var src := cells[o..o + WindowLength];
    assert forall k :: 0 <= k < WindowLength - 1 ==> src[k] == cells[o + k];
    StrncpyKeepsPrefix(src, WindowLength, WindowLength - 1);
    var copy := Strncpy(src, WindowLength);
    var middle := copy[1..WindowLength - 1];
    assert middle == copy[..WindowLength - 1][1..];
    assert middle == src[..WindowLength - 1][1..];
    assert middle == cells[o + 1..o + WindowLength - 1];
    var text := [Space] + middle + [Space];
    assert 0 !in text;
    assert Subspectrum(cells, o) == text + [0] + [];
    CStringOfTerminated(text, []);
  }

  /**
   The string the spectrum field receives: the 16 cells from offset `o`
   through `strncpy`, first and last replaced by spaces, read up to the
   first NUL. Without NULs in cells `o` to `o + 14`, that is exactly cells
   `o + 1` to `o + 14` between two spaces; cell `o` is never shown, but a
   NUL there blanks the window to a single space.
   */
  function Window(cells: seq<Byte>, o: nat): (r: seq<Byte>)
    requires o + WindowLength <= |cells|
    ensures 1 <= |r| <= WindowLength && r[0] == Space && 0 !in r
    ensures (forall k :: o <= k < o + WindowLength - 1 ==> cells[k] != 0) ==>
      r == [Space] + cells[o + 1..o + WindowLength - 1] + [Space]
    ensures cells[o] == 0 ==> r == [Space]
  {
    SubspectrumShape(cells, o);
    if forall k :: o <= k < o + WindowLength - 1 ==> cells[k] != 0 then
      SubspectrumOfNulFree(cells, o);
      CString(Subspectrum(cells, o))
    else if cells[o] == 0 then
      HiddenNulBlanks(cells, o);
      CString(Subspectrum(cells, o))
    else
      CString(Subspectrum(cells, o))
  }

  /** The window read depends on nothing but the 16 cells from `o`. */
  lemma WindowFrame(a: seq<Byte>, b: seq<Byte>, o: nat)
    requires o + WindowLength <= |a| && o + WindowLength <= |b|
    requires a[o..o + WindowLength] == b[o..o + WindowLength]
    ensures Window(a, o) == Window(b, o)
  {
  }

  /** Without NULs in view, position `j` of the window shows cell `o + j`. */
  lemma WindowAt(cells: seq<Byte>, o: nat, j: nat)
    requires o + WindowLength <= |cells|
    requires forall k :: o <= k < o + WindowLength - 1 ==> cells[k] != 0
    requires 1 <= j < WindowLength - 1
    ensures |Window(cells, o)| == WindowLength && Window(cells, o)[j] == cells[o + j]
  {
    var middle := cells[o + 1..o + WindowLength - 1];
    assert Window(cells, o) == [Space] + middle + [Space];
    assert ([Space] + middle + [Space])[j] == middle[j - 1];
  }

  /**
   A write made while locked shows up in the window read at the same
   offset: the pair lies among the cells the window displays, at positions
   `PairIndex(o) - o` and one after, provided nothing in view is NUL and
   the bar count is not one of the two whose glyph wraps to NUL.
   */
  lemma RecordedPairIsShown(cells: seq<Byte>, rf: U16, ch: U16, bars: Byte)
    requires Locked(rf, ch) && bars != 5 && bars != 9
    requires CharOffset(rf) + WindowLength <= |cells|
    requires NulFree(cells)
    ensures var o := CharOffset(rf); var i := PairIndex(o); var w := Window(Record(cells, rf, ch, bars), o);
      && |w| == WindowLength
      && w[i - o] == LeftGlyph(bars) && w[i + 1 - o] == RightGlyph(bars)
  {
    var o := CharOffset(rf);
    var i := PairIndex(o);
    var r := Record(cells, rf, ch, bars);
    GlyphsNonNul(bars);
    assert forall k :: o <= k < o + WindowLength - 1 ==> r[k] != 0;
    WindowAt(r, o, i - o);
    WindowAt(r, o, i + 1 - o);
  }

  /**
   A NUL among the displayed cells ends the window string just before it,
   provided the hidden cell `o` and the cells before the NUL are not NUL.
   */
  lemma WindowStopsAtNul(cells: seq<Byte>, o: nat, m: nat)
    requires o + WindowLength <= |cells|
    requires 1 <= m < WindowLength - 1
    requires forall k :: o <= k < o + m ==> cells[k] != 0
    requires cells[o + m] == 0
    ensures Window(cells, o) == [Space] + cells[o + 1..o + m]
  {
    var text, tail := SubspectrumBeforeNul(cells, o, m);
    CStringOfTerminated(text, tail);
  }

  /** The subspectrum string, cut at the NUL in cell `o + m`. */
  lemma SubspectrumBeforeNul(cells: seq<Byte>, o: nat, m: nat) returns (text: seq<Byte>, tail: seq<Byte>)
    requires o + WindowLength <= |cells|
    requires 1 <= m < WindowLength - 1
    requires forall k :: o <= k < o + m ==> cells[k] != 0
    requires cells[o + m] == 0
    ensures text == [Space] + cells[o + 1..o + m] && 0 !in text
    ensures Subspectrum(cells, o) == text + [0] + tail
  {
    var middle := MiddleBeforeNul(cells, o, m);
    assert Subspectrum(cells, o) == [Space] + middle + [Space] + [0];
    text, tail := CutAt(middle, m - 1);
    SliceNulFree(cells, o + 1, o + m);
  }

  lemma SliceNulFree(cells: seq<Byte>, a: nat, b: nat)
    requires a <= b <= |cells|
    requires forall k :: a <= k < b ==> cells[k] != 0
    ensures 0 !in cells[a..b]
  {
    assert forall k :: 0 <= k < b - a ==> cells[a..b][k] == cells[a + k];
  }

  /** Bracketing `middle` in spaces and cutting the result at a NUL inside it. */
  lemma CutAt(middle: seq<Byte>, i: nat) returns (text: seq<Byte>, tail: seq<Byte>)
    requires i < |middle| && middle[i] == 0
    ensures text == [Space] + middle[..i]
    ensures [Space] + middle + [Space] + [0] == text + [0] + tail
  {
    text := [Space] + middle[..i];
    tail := middle[i + 1..] + [Space] + [0];
    assert middle == middle[..i] + [0] + middle[i + 1..];
  }

  /** The copied characters between the two spaces, when cell `o + m` is NUL. */
  lemma MiddleBeforeNul(cells: seq<Byte>, o: nat, m: nat) returns (middle: seq<Byte>)
    requires o + WindowLength <= |cells|
    requires 1 <= m < WindowLength - 1
    requires forall k :: o <= k < o + m ==> cells[k] != 0
    requires cells[o + m] == 0
    ensures middle == Strncpy(cells[o..o + WindowLength], WindowLength)[1..WindowLength - 1]
    ensures |middle| == WindowLength - 2 && m - 1 < |middle|
    ensures middle[..m - 1] == cells[o + 1..o + m] && middle[m - 1] == 0
  {
    var src := cells[o..o + WindowLength];
    assert forall k :: 0 <= k < m ==> src[k] == cells[o + k];
    middle := CopyBeforeNul(src, WindowLength, m);
  }

  lemma CopyBeforeNul(src: seq<Byte>, n: nat, m: nat) returns (middle: seq<Byte>)
    requires n <= |src| && 1 <= m < n - 1
    requires forall k :: 0 <= k < m ==> src[k] != 0
    requires src[m] == 0
    ensures middle == Strncpy(src, n)[1..n - 1]
    ensures |middle| == n - 2
    ensures middle[..m - 1] == src[1..m] && middle[m - 1] == 0
  {
    StrncpyStopsAtNul(src, n, m);
    var copy := Strncpy(src, n);
    assert copy == src[..m] + seq(n - m, _ => 0);
    middle := copy[1..n - 1];
    assert copy[m] == 0;
    assert middle[..m - 1] == src[1..m];
  }

  /**
   At five bars the right-half glyph is NUL, so the next window read at
   the same offset ends right after the left half of the pair: everything
   to the right of the current channel drops out of view.
   */
  lemma FullStrengthCutsWindow(cells: seq<Byte>, rf: U16, ch: U16)
    requires Locked(rf, ch)
    requires CharOffset(rf) + WindowLength <= |cells|
    requires NulFree(cells)
    ensures var o := CharOffset(rf); var i := PairIndex(o); var r := Record(cells, rf, ch, 5);
      && r[i] == 0xFC && r[i + 1] == 0
      && Window(r, o) == [Space] + r[o + 1..i + 1]
      && |Window(r, o)| < WindowLength
  {
    var o := CharOffset(rf);
    var i := PairIndex(o);
    var r := Record(cells, rf, ch, 5);
    WindowStopsAtNul(r, o, i + 1 - o);
  }
}
